=== FILE: README.md ===
# mapter: the object mapper and the validator, in Dafny

`mapter` (src/index.ts) holds two small rule engines for plain JavaScript
objects:

- **`Map(spec, src)`** builds a new object from `src`. It rejects a source that
  is not object-typed, and a `null` source unless `allowNull` is set. It copies
  the `transfer` properties. Then, row by row, it stores under each row's
  destination property either a mapper's result or the result of mapping the
  source property with a nested spec.
- **`Validate(spec, obj)`** checks an object against a spec that declares, per
  property, a list of rules or a nested spec. It returns a `ValidationSummary`:
  validity, an error count, the missing and redundant property names, and the
  error messages per property path. It is built from:
  - `_ValidationSummary` (`New`, `incErrCount`, `addErr`, `mergeNestedSummary`);
  - the default options;
  - the pre-check `_validationPreCheckProps`, which splits the object's
    properties into missing, redundant and to-check.

The model is functional:
- A JavaScript value is the datatype `Values.Value`.
- A plain object is an ordered property list, `Records.Prop` in a `seq`. An
  assignment to an existing key overwrites it in place; a new key is appended.
  This gives the enumeration order JavaScript gives string keys.
- A thrown exception is an `Err` result.
- Mappers, validators, `stopWhen`, `errorHandler` and message functions are
  function values the caller supplies.
- The summary the source mutates in place is a value each operation returns
  updated.

Modules:
- `Wrappers`: `Option`.
- `Records`: objects as property lists. `Put` is `o[k] = v`; `PutAll` is a run of
  assignments and `Object.fromEntries`.
- `Values`: JS values, `typeof`/`IsOfType`/`Exists`, `??`, and the property read
  `o?.[k]`.
- `Mapping`: `Map`.
- `Summaries`: `_ValidationSummary`.
- `Validator`: options, pre-check, rule evaluation, `Validate`.
- `Scenarios`: worked examples with their exact results.

Behaviour reproduced as the code is written:

- **The `else if` at line 56 tests the entry's truthiness.** Its condition
  is `(IsOfType('object'), mapperOrSpec)`, a comma expression whose value is
  `mapperOrSpec`. So a row whose second entry is not a function is mapped
  recursively with that entry as the spec exactly when the entry is truthy.
  - An object is modelled as a nested spec (`Rule.Nested`).
  - A falsy entry (`null`, `undefined`, `false`, `0`, `''`) reaches the throw
    at lines 58-59, "mapper can be either function or object, not " followed
    by the entry's type name. `Mapping.EvalRow` states this.
  - A truthy entry that is neither a function nor an object (`Rule.Other`) ends
    in the recursive call's own checks. A primitive source throws "must be an
    object or null", a `null` source throws "can not be null", and an array or
    object source throws a `TypeError` when `entry.map` is iterated.
    `Mapping.MapOther` states this.
- **`ruleIndex` is the property's index in `propsToCheck`.** When a rule
  throws, `errorHandler` receives `ruleIndex: i`, where `i` is the index of
  the property being checked, not of the rule (line 231).
  - `Validator.RuleVerdict` takes that index.
  - `Validator.RulesPropertyStep` passes the loop index `i` into it.
- **A missing property counts one error, however many are missing**
  (lines 205-208). A redundant property is recorded always but counted only
  under `redundantIsError` (lines 209-214).
- **`mergeNestedSummary` rebuilds `errors` with `Object.fromEntries`.** The
  parent's entries come first, then the nested ones with `key.` prefixed. A
  prefixed nested key equal to an existing parent key replaces that list
  rather than appending to it.
- **The mapping loop reads only `src`, never the object being built.** So
  `Map` is modelled as two steps: collect the row assignments in order
  (`ApplyRows`, stopping at the first throw), then apply them after the
  transfer assignments. `Mapping.MapSucceeds` and
  `Mapping.MapFailsAtFirstThrowingRow` state the resulting behaviour.

## Model

| member | source | states |
|---|---|---|
| Records.Put | src/index.ts:47 | `o[k] = v`: afterwards `k` reads `v` and every other key reads what it read before. The key list is unchanged when `k` was present and gains `k` at the end otherwise. An object stays an object. |
| Records.PutAll | src/index.ts:46-48 | A run of assignments: the last write to a key wins, a key nobody writes keeps its value, and keys appear in first-assignment order. |
| Records.FromEntries | src/index.ts:111-114 | `Object.fromEntries`: the result has no duplicate key, and its keys are the entries' keys in order of first occurrence. A key reads the value of its last entry, and a key no entry carries is absent. |
| Records.PutAllConcat | src/index.ts:45-61 | Two runs of assignments in sequence are one run over the concatenation. |
| Records.FromEntriesOfObject | src/index.ts:111-114 | `Object.fromEntries` of an object's own entries gives back that object. |
| Records.PutAllUniform | src/index.ts:46-48 | When every assignment to `k` in a run writes the same value, `k` ends with that value. |
| Values.Get | src/index.ts:47 | `src?.[prop]` gives an own property of an object, or `undefined` when it is absent or when `src` is null, undefined or a primitive. On an array it gives the `length`, the element at a canonical decimal index within bounds, and `undefined` for any other key. |
| Values.OrNull | src/index.ts:55 | `v ?? null` replaces exactly `null` and `undefined` by `null` and keeps every other value. |
| Mapping.CheckSource | src/index.ts:34-43 | The source passes exactly when it is object-typed and, if null, `allowNull` is set. Otherwise it names the first guard that throws and that guard's message. |
| Mapping.TransferPairs | src/index.ts:45-48 | The transfer loop makes one assignment per `transfer` property, in order, each holding the source's `src?.[prop]`. |
| Mapping.Map | src/index.ts:31-64 | A non-object-typed source throws "src must be an object or null"; a null source without `allowNull` throws "src can not be null". A result is a genuine object whose keys are the transfer properties and then the row destinations, each at its first position. |
| Mapping.ApplyRows | src/index.ts:51-61 | The row loop, when it completes, makes one assignment per row. Each assignment is keyed by that row's destination, in row order, and holds the value the row computed. |
| Mapping.EvalRow | src/index.ts:54-60 | A row whose entry is neither a function nor an object always throws. It throws the "mapper can be either function or object, not " error exactly when the entry is falsy, and then that text is followed by the entry's type name. |
| Mapping.MapOther | src/index.ts:56-57 | A truthy entry that is neither a function nor an object always throws, and never the "mapper can be either function or object" error. A primitive source throws "must be an object or null", a `null` source throws "can not be null", and an array or object source throws a `TypeError`. |
| Mapping.MapSucceeds | src/index.ts:45-63 | An accepted source with no throwing row maps to `Object.fromEntries` of the transfer pairs followed by each row's destination and value. |
| Mapping.MapFailsAtFirstThrowingRow | src/index.ts:51-61 | When rows before `j` return and row `j` throws, `Map` throws exactly what row `j` threw. |
| Mapping.MapFieldValues | src/index.ts:45-63 | In a successful result, a destination holds the value of the last row writing it. A transfer property no row writes holds the source's property. No other property is present. |
| Mapping.ApplyRowsFails | src/index.ts:51-61 | The row loop from `i` throws what the first throwing row at or after `i` throws. |
| Summaries.New | src/index.ts:87-95 | A new summary is valid, counts 0 errors, has no missing or redundant property and no error entry, and satisfies the invariant. |
| Summaries.IncErrCount | src/index.ts:75-78 | The count rises by exactly one and the summary becomes invalid, keeping `valid <==> errorCount == 0`. Nothing else changes. |
| Summaries.AddErr | src/index.ts:79-86 | `msg` is appended after the messages already under `k`, or starts a list. Every other key's messages are unchanged, and the key order gains `k` only if new. One error is counted, and well-formedness is kept. |
| Summaries.AddErrs | src/index.ts:224-244 | Repeated `addErr` under one key appends all the messages in order and counts one error per message. It leaves other keys alone and preserves well-formedness. |
| Summaries.MergeNestedSummary | src/index.ts:96-115 | Counts add and validity is the conjunction, so the invariant is preserved. The nested missing and redundant names, prefixed with `key.`, follow the parent's own. Each nested error list is found under its prefixed key, other parent keys keep their lists, and the key order is the parent's followed by the new prefixed keys. |
| Summaries.MergeErrors | src/index.ts:108-114 | The merged errors are the parent's entries with the prefixed nested entries assigned over them. |
| Summaries.PrefixKeyInjective | src/index.ts:101 | Distinct nested keys get distinct prefixed paths. |
| Validator.DefaultOptions | src/index.ts:131-137 | The five defaults: no optional property, `redundantIsError` true, a `stopWhen` that never holds, an `errorHandler` giving "Could not validate property: " followed by the key, and `isOptional` false. |
| Validator.WithDefaults | src/index.ts:184-187 | For each of the five options, a given value wins and an absent one takes its default. |
| Validator.WriteBackIsIdempotent | src/index.ts:184-188 | Writing the normalized options back onto the spec changes nothing a later normalization sees. With no options given, the result is `_defaultValidationOptions`. |
| Validator.Within | src/index.ts:171 | `filter(includes)`: exactly the elements in both lists, in the first list's order, without duplicates when the input has none. |
| Validator.Without | src/index.ts:169-170 | `filter(!includes)`: exactly the elements of the first list absent from the second, in the first list's order. |
| Validator.SubsequenceTrans | src/index.ts:160-169 | Filtering a filtered list keeps the original order. |
| Validator.FilterPartition | src/index.ts:170-171 | The two filters of the present properties split them: their lengths add up to the whole. |
| Validator.Present | src/index.ts:165-167 | A key is present exactly when some entry carries it with a value other than `null` or `undefined`. Present keys keep the object's entry order. |
| Validator.PreCheckProps | src/index.ts:157-178 | `missing` is exactly the declared, non-optional, absent properties, in declaration order. `propsToCheck` is exactly the present declared ones and `redundant` the present undeclared ones, both in the object's entry order. These two partition the present properties without duplicates. |
| Validator.MessageText | src/index.ts:237-240 | A string message is used as it is; a message function is called with the value and the key. |
| Validator.RuleVerdict | src/index.ts:227-243 | A rule yields no message exactly when its validator returns true. A false result yields the rule's message (the string, or the function of value and key). A throw yields `errorHandler`'s message for an exception carrying the key, the value, the given index and the thrown error. |
| Validator.RuleMessages | src/index.ts:224-244 | There are exactly as many messages as rules that return false or throw. A message occurs exactly when some rule's verdict is that message. There is none exactly when all pass, and one per rule exactly when none passes. |
| Validator.RuleMessagesInOrder | src/index.ts:224-243 | The messages come in rule order. A rule that fails or throws contributes its verdict's message at the position equal to the number of earlier rules that failed or threw. |
| Validator.EvalRules | src/index.ts:224-244 | The rule loop of one property keeps the summary well-formed. It never lowers the count, and it touches neither the missing or redundant lists nor any other key's messages. |
| Validator.EvalRulesRecordsMessages | src/index.ts:224-244 | The rule loop records exactly the messages of `RuleMessages` under the key, after any already there, counting one error each. |
| Validator.Prelude | src/index.ts:205-214 | Before the loop, the count is one if anything is missing, plus one if anything is redundant and `redundantIsError` holds. The missing and redundant lists are recorded and there are no error entries. |
| Validator.CheckFields | src/index.ts:216-249 | The property loop keeps the summary well-formed and never lowers the count or drops a recorded missing or redundant name. When `stopWhen` holds it returns the summary unchanged. |
| Validator.ValidateAsWritten | src/index.ts:180-188 | As written, every call throws a `TypeError`, because line 184 calls `WithDefault` on the value being validated. |
| Validator.Validate | src/index.ts:180-252 | With line 184 calling the library's `obj.WithDefault` as intended: a non-object yields the single `_self` error "Value should be an object", except that an absent value under `isOptional` yields a clean valid summary. On an object, a missing property, or a redundant one under `redundantIsError`, makes the result invalid, and both lists are reported. The invariant always holds. |
| Validator.StopBeforeFirstProperty | src/index.ts:216-217 | When `stopWhen` holds after the prelude, `Validate` returns the prelude's summary. |
| Validator.RulesPropertyStep | src/index.ts:219-244 | A rules property adds exactly its `RuleMessages`, computed with `ruleIndex` equal to the property's index, under its key, then the loop moves on. |
| Validator.NestedPropertyStep | src/index.ts:245-248 | A nested-spec property merges the nested summary of its value under its name, then the loop moves on. The next property sees each nested error list under its `key.`-prefixed path and every other list unchanged. The nested count is added, and the summary stays valid only if both were valid. |
| Scenarios.MapTransferAndRename | src/index.ts:45-63 | `{transfer: ['id'], map: [['name', toUpperCase, 'NAME']]}` maps `{id: 1, name: 'ana'}` to `{id: 1, NAME: 'ANA'}`. |
| Scenarios.ValidateSingleRule | src/index.ts:180-252 | With one single-rule property and default options, `Validate` on an object holding just that property returns exactly that rule's verdict. |
| Scenarios.ValidateUnderage | src/index.ts:224-243 | A failing rule gives one error with its message under the property. |
| Scenarios.UnderageThrowsAsWritten | src/index.ts:182-184 | On `{age: 10}`, `Validate` as written throws a `TypeError`, where the intended definition returns one error under `age`. |
| Scenarios.ValidateNestedPath | src/index.ts:245-248 | A nested error is filed under `addr.zip`. |
| Scenarios.ValidateMissing | src/index.ts:205-208 | A missing required property is listed and counted once. |
| Scenarios.ValidateRedundant | src/index.ts:209-214 | A redundant property is listed and counted by default. |
| Scenarios.ValidateRedundantTolerated | src/index.ts:209-214 | Under `redundantIsError: false`, a redundant property is listed but not counted. |
| Scenarios.ValidateStopsAfterFirstError | src/index.ts:216-217 | With a `stopWhen` that holds once an error is counted, only the first property's error is reported. |
| Scenarios.ValidateNotAnObject | src/index.ts:192-197 | A number gives the `_self` error even under `isOptional`, and `undefined` under `isOptional` gives a clean summary. |

## Findings

| source | as written | input that shows it | evidently intended | confidence | as-written member | corrected member |
|---|---|---|---|---|---|---|
| src/index.ts:182-184 | The parameter `obj` hides the imported `obj` helpers. So `obj.WithDefault(...)` reads `WithDefault` off the value being validated, and calling it throws a `TypeError` for every input. | `Validate({age: [[v => v >= 18, 'must be adult']]}, {age: 10})` | Merge the options with the library's `obj.WithDefault` and return a summary with one error under `age` | high; not executed | Validator.ValidateAsWritten, Scenarios.UnderageThrowsAsWritten | Validator.Validate |

The rest of the model uses the corrected `Validate`.

## Left out

- Currying of `Map` (`Curry`, partial application): a higher-order wrapper,
  not part of the logic. `Map` takes both arguments.
- `obj.DeepCopy` is the identity: Dafny values are immutable, so a copy and
  the original cannot be told apart.
- `fp-way-core` is not part of this model. Its helpers are modelled by the
  behaviour the engine relies on:
  - `IsOfType('object', v)` is a plain object, neither `null` nor an array;
  - `TypeOf(v)` names types as `typeof` does, so `null` and arrays are
    "object". The library may name them differently; the text after line
    59's fixed message is modelled only up to that naming;
  - `Exists(v)` is "neither `null` nor `undefined`";
  - `obj.Keys`/`Entries` list own string keys in order;
  - `obj.WithDefault`, in the corrected `Validate`, lets given options win
    over defaults.
- The write-back of normalized options onto the spec under a `Symbol` key
  (line 188): modelled as the pure merge `WithDefaults`. No later read can
  observe the write; `WriteBackIsIdempotent` states this.
- `stopWhen`, `errorHandler`, message functions and nested validators are
  taken not to throw. An exception from them would escape `Validate`, and the
  model does not trace that path. Only rule validators and mappers may throw.
- Mappers, validators, `stopWhen`, `errorHandler` and message functions are
  taken not to change their arguments. The source hands them shared mutable
  objects: mappers get the source copy (line 55), validators the caller's
  object (line 229), and `stopWhen` the live summary (line 217). A callback
  that mutated these could change later rows or rules, and the model does
  not trace that.
- A mapping row's entry that is an object is always a nested spec. An object
  without a `map` array, or with `allowNull` on a `null` source, is outside
  the declared type and is not modelled. Other non-function entries are
  `Rule.Other`.
- Truthiness: a validator's result is a boolean. The source's `!rulePass`
  also treats other falsy values (`0`, `''`, `undefined`) as failure.
- Numbers are unbounded integers: `errorCount` and array lengths never
  approach 2^53, and no mapper arithmetic is modelled. Non-integer numbers,
  `NaN` and `-0` are not modelled; a `NaN` row entry would be falsy and reach
  the throw at line 59.
- Objects are property lists with string keys in insertion order. Not
  modelled:
  - JavaScript's rule that integer-like keys enumerate first;
  - prototype and inherited properties, getters, and the `__proto__` key; an
    array method such as `map` reads as `undefined`.
- A string source for `Map` is rejected by the `typeof` check like any other
  primitive. Property reads on strings (`'abc'?.[0]`) are not modelled, as
  `Map` never gets that far with one.
- Malformed validation specs, whose property entries are neither an array of
  rules nor an object, are not modelled.
- The test file and its asynchronous, per-field spec API
  (`AsyncObjectMapSpec`, `MapperSpecOptionsSym`) do not exist in
  src/index.ts and are not part of this model.

=== FILE: mapping.dfy ===
/**
  `Map(mapSpec, src)` (src/index.ts:31-64): builds a new object from `src` by
  copying the `transfer` properties and then, row by row, storing under each
  row's destination property the value its mapper computes, or the result of
  mapping the source property with a nested spec.

  `obj.DeepCopy` is the identity on these immutable values, so the mappers see
  `src` itself. A thrown exception is an `Err` result: the engine's own
  input errors, a `TypeError` of the runtime, or whatever a mapper throws,
  which `Map` never catches.
 */
module Mapping {
  import opened Wrappers
  import opened Records
  import opened Values

  /**
    The second entry of a mapping row. `Apply` is a mapper function called as
    `mapper(src[sourceProp] ?? null, src)`; `Nested` a mapping spec applied to
    `src[sourceProp] ?? null`; `Other` any entry that is neither a function
    nor an object: a primitive, `null`, `undefined` or an array.
   */
  datatype Rule =
    | Apply(mapper: (Value, Value) -> Result<Value>)
    | Nested(spec: MapSpec)
    | Other(entry: NonObject)

  /** A value that is not a plain object. */
  type NonObject = v: Value | !v.Obj? witness Undefined

  /** One `[sourceProp, mapperOrSpec, destinationProp]` row. */
  datatype Row = Row(sourceProp: string, rule: Rule, destinationProp: string)

  /** An `ObjectMapSpec`; an absent `transfer` is the empty list and an absent `allowNull` is false. */
  datatype MapSpec = MapSpec(rows: seq<Row>, transfer: seq<string>, allowNull: bool)

  const NotObjectMessage := "Invalid input to obj.Map: src must be an object or null"
  const NullMessage := "Invalid input to obj.Map: src can not be null"
  /** The fixed text of line 59's error, written in parts so that its characters can be read off. */
  const MapperKindMessage := "Invalid input to obj.Map: " + "mapper can be " + "either function or object, not "

  /** The error of line 59, whatever type name follows its fixed text. */
  predicate IsMapperKindError(e: Thrown) {
    e.Error? && MapperKindMessage <= e.message
  }

  /** The two guarded throws at the top of `Map`, first match wins; `None` lets the source through. */
  function CheckSource(src: Value, allowNull: bool): (r: Option<Thrown>)
    ensures r.None? <==> IsObjectTyped(src) && (src.Null? ==> allowNull)
    ensures !IsObjectTyped(src) ==> r == Some(Error(NotObjectMessage))
    ensures src.Null? && !allowNull ==> r == Some(Error(NullMessage))
  {
    if !IsObjectTyped(src) then Some(Error(NotObjectMessage))
    else if src.Null? && !allowNull then Some(Error(NullMessage))
    else None
  }

  /** The destination properties of `rows`, in order. */
  function Dests(rows: seq<Row>): (ds: seq<string>)
    ensures |ds| == |rows|
    ensures forall i :: 0 <= i < |rows| ==> ds[i] == rows[i].destinationProp
  {
    seq(|rows|, i requires 0 <= i < |rows| => rows[i].destinationProp)
  }

  lemma DestsSuffix(rows: seq<Row>, i: nat)
    requires i <= |rows|
    ensures Dests(rows[i..]) == Dests(rows)[i..]
  {
  }

  /** The assignments `result[prop] = src?.[prop]` of the transfer loop, in order. */
  function TransferPairs(transfer: seq<string>, src: Value): (ps: seq<Prop<Value>>)
    ensures Keys(ps) == transfer
    ensures forall j :: 0 <= j < |ps| ==> ps[j].val == Get(src, ps[j].key)
  {
    seq(|transfer|, i requires 0 <= i < |transfer| => Prop(transfer[i], Get(src, transfer[i])))
  }

  /**
    `Map(spec, original)`. The source is rejected unless it is object-typed,
    and rejected when null unless `allowNull`; then the transfer properties are
    copied and the rows' assignments made in order. A mapper sees `src`, never
    the object being built, so running the rows first and assigning afterwards
    builds the same object.
   */
  function Map(spec: MapSpec, original: Value): (r: Result<Value>)
    ensures !IsObjectTyped(original) ==> r == Err(Error(NotObjectMessage))
    ensures original.Null? && !spec.allowNull ==> r == Err(Error(NullMessage))
    ensures r.Ok? ==> r.value.Obj? && UniqueKeys(r.value.props)
    ensures r.Ok? ==> Keys(r.value.props) == AppendNew([], spec.transfer + Dests(spec.rows))
    decreases spec, 2
  {
    var src := original;
    match CheckSource(src, spec.allowNull)
    case Some(e) => Err(e)
    case None =>
      var base := PutAll([], TransferPairs(spec.transfer, src));
      match ApplyRows(spec, src, 0)
      case Err(e) => Err(e)
      case Ok(written) =>
        assert spec.rows[0..] == spec.rows;
        AppendNewConcat([], spec.transfer, Dests(spec.rows));
        Ok(Obj(PutAll(base, written)))
  }

  /**
    The row loop from row `i` on: the assignments `result[destinationProp] =
    value` it makes, in order, or what the first throwing row throws.
   */
  function ApplyRows(spec: MapSpec, src: Value, i: nat): (r: Result<seq<Prop<Value>>>)
    requires i <= |spec.rows|
    ensures r.Ok? ==> |r.value| == |spec.rows| - i && Keys(r.value) == Dests(spec.rows[i..])
    ensures r.Ok? ==> forall m :: 0 <= m < |r.value| ==> EvalRow(spec, i + m, src) == Ok(r.value[m].val)
    decreases spec, 1, |spec.rows| - i, 1
  {
    if i == |spec.rows| then
      assert spec.rows[i..] == [];
      Ok([])
    else
      match EvalRow(spec, i, src)
      case Err(e) => Err(e)
      case Ok(v) =>
        match ApplyRows(spec, src, i + 1)
        case Err(e) => Err(e)
        case Ok(rest) =>
          var written := [Prop(spec.rows[i].destinationProp, v)] + rest;
          ApplyRowsCons(spec, src, i, v, rest);
          Ok(written)
  }

  lemma ApplyRowsCons(spec: MapSpec, src: Value, i: nat, v: Value, rest: seq<Prop<Value>>)
    requires i < |spec.rows| && EvalRow(spec, i, src) == Ok(v)
    requires |rest| == |spec.rows| - (i + 1) && Keys(rest) == Dests(spec.rows[i + 1..])
    requires forall m :: 0 <= m < |rest| ==> EvalRow(spec, i + 1 + m, src) == Ok(rest[m].val)
    ensures var written := [Prop(spec.rows[i].destinationProp, v)] + rest;
      && Keys(written) == Dests(spec.rows[i..])
      && forall m :: 0 <= m < |written| ==> EvalRow(spec, i + m, src) == Ok(written[m].val)
    decreases spec, 1, |spec.rows| - i, 0
  {
    var written := [Prop(spec.rows[i].destinationProp, v)] + rest;
    KeysCons(Prop(spec.rows[i].destinationProp, v), rest);
    DestsStep(spec.rows, i);
    forall m | 0 <= m < |written|
      ensures EvalRow(spec, i + m, src) == Ok(written[m].val)
    {
      if m > 0 {
        assert written[m] == rest[m - 1];
      }
    }
  }

  lemma DestsStep(rows: seq<Row>, i: nat)
    requires i < |rows|
    ensures Dests(rows[i..]) == [rows[i].destinationProp] + Dests(rows[i + 1..])
  {
    var ds := Dests(rows[i..]);
    assert ds[0] == rows[i].destinationProp;
    assert ds[1..] == Dests(rows[i + 1..]);
    assert ds == [ds[0]] + ds[1..];
  }

  /**
    The value row `i` produces: the mapper's result, or the nested mapping's.
    The test at line 56 is a comma expression whose value is the entry
    itself, so an entry that is neither a function nor an object is mapped
    recursively as a spec when it is truthy, and reaches the throw at line
    59 only when it is falsy.
   */
  function EvalRow(spec: MapSpec, i: nat, src: Value): (r: Result<Value>)
    requires i < |spec.rows|
    ensures spec.rows[i].rule.Other? ==> r.Err?
    ensures spec.rows[i].rule.Other? ==> (IsMapperKindError(r.error) <==> !Truthy(spec.rows[i].rule.entry))
    ensures spec.rows[i].rule.Other? && !Truthy(spec.rows[i].rule.entry) ==>
      r.error == Error(MapperKindMessage + TypeOf(spec.rows[i].rule.entry))
    decreases spec, 0
  {
    var row := spec.rows[i];
    var input := OrNull(Get(src, row.sourceProp));
    match row.rule
    case Apply(mapper) => mapper(input, src)
    case Nested(nested) => Map(nested, input)
    case Other(entry) =>
      if Truthy(entry) then MapOther(input)
      else
        assert MapperKindMessage <= MapperKindMessage + TypeOf(entry);
        Err(Error(MapperKindMessage + TypeOf(entry)))
  }

  /**
    The recursive `Map(entry, input)` that line 57 makes for a truthy entry
    that is neither a function nor an object. `entry?.allowNull` and
    `entry.transfer` are undefined, so the input checks run with `allowNull`
    unset; past them, `entry.map` is undefined (or, on an array, the method
    `Array.prototype.map`), and iterating it throws a `TypeError`.
   */
  function MapOther(input: Value): (r: Result<Value>)
    ensures r.Err? && !IsMapperKindError(r.error)
    ensures !IsObjectTyped(input) ==> r.error == Error(NotObjectMessage)
    ensures input.Null? ==> r.error == Error(NullMessage)
    ensures input.Arr? || input.Obj? ==> r.error == TypeError
  {
    SourceErrorsAreNotMapperKind();
    match CheckSource(input, false)
    case Some(e) => Err(e)
    case None => Err(TypeError)
  }

  /** The two input errors differ from the line-59 error right after their common "Invalid input to obj.Map: ". */
  lemma SourceErrorsAreNotMapperKind()
    ensures !IsMapperKindError(Error(NotObjectMessage)) && !IsMapperKindError(Error(NullMessage))
  {
    assert MapperKindMessage[26] == "mapper can be "[0] == 'm';
    assert NotObjectMessage[26] == 's' && NullMessage[26] == 's';
  }

  /** Every row's mapper or nested mapping returns without throwing. */
  predicate RowsSucceed(spec: MapSpec, src: Value) {
    forall i :: 0 <= i < |spec.rows| ==> EvalRow(spec, i, src).Ok?
  }

  /** The assignments `result[destinationProp] = value` of the row loop, in order. */
  function RowPairs(spec: MapSpec, src: Value): (ps: seq<Prop<Value>>)
    requires RowsSucceed(spec, src)
    ensures Keys(ps) == Dests(spec.rows)
    ensures forall i :: 0 <= i < |ps| ==> ps[i].val == EvalRow(spec, i, src).value
  {
    seq(|spec.rows|, i requires 0 <= i < |spec.rows| && RowsSucceed(spec, src) =>
      Prop(spec.rows[i].destinationProp, EvalRow(spec, i, src).value))
  }

  /** Rows `i` up to `j` (exclusive) return without throwing. */
  predicate RowsSucceedBetween(spec: MapSpec, src: Value, i: nat, j: nat)
    requires j <= |spec.rows|
  {
    forall m :: i <= m < j ==> EvalRow(spec, m, src).Ok?
  }

  /** When no row from `i` on throws, the row loop returns. */
  lemma {:induction false} ApplyRowsSucceed(spec: MapSpec, src: Value, i: nat)
    requires i <= |spec.rows| && RowsSucceedBetween(spec, src, i, |spec.rows|)
    ensures ApplyRows(spec, src, i).Ok?
    decreases |spec.rows| - i
  {
    if i < |spec.rows| {
      assert EvalRow(spec, i, src).Ok?;
      ApplyRowsSucceed(spec, src, i + 1);
    }
  }

  /** When no row throws, the row loop's assignments are `RowPairs`. */
  lemma RowLoopPairs(spec: MapSpec, src: Value)
    requires RowsSucceed(spec, src)
    ensures ApplyRows(spec, src, 0) == Ok(RowPairs(spec, src))
  {
    ApplyRowsSucceed(spec, src, 0);
    var written := ApplyRows(spec, src, 0).value;
    var rp := RowPairs(spec, src);
    assert spec.rows[0..] == spec.rows;
    forall m | 0 <= m < |rp|
      ensures written[m] == rp[m]
    {
      assert Keys(written)[m] == Keys(rp)[m];
      assert EvalRow(spec, 0 + m, src) == Ok(written[m].val);
    }
    assert |written| == |rp|;
    assert written == rp;
  }

  /**
    When the source is accepted and no row throws, `Map` returns the object
    `Object.fromEntries` builds from the transfer pairs followed by each row's
    destination and value: a later row overwrites an earlier property of the
    same name, and every property keeps its first position.
   */
  lemma MapSucceeds(spec: MapSpec, src: Value)
    requires CheckSource(src, spec.allowNull).None?
    requires RowsSucceed(spec, src)
    ensures Map(spec, src) == Ok(Obj(FromEntries(TransferPairs(spec.transfer, src) + RowPairs(spec, src))))
  {
    RowLoopPairs(spec, src);
    PutAllConcat([], TransferPairs(spec.transfer, src), RowPairs(spec, src));
  }

  /** The row loop from `i` throws what the first throwing row `j` throws. */
  lemma {:induction false} ApplyRowsFails(spec: MapSpec, src: Value, i: nat, j: nat)
    requires i <= j < |spec.rows|
    requires EvalRow(spec, j, src).Err?
    requires RowsSucceedBetween(spec, src, i, j)
    ensures ApplyRows(spec, src, i) == Err(EvalRow(spec, j, src).error)
    decreases j - i
  {
    if i < j {
      assert EvalRow(spec, i, src).Ok?;
      ApplyRowsFails(spec, src, i + 1, j);
    }
  }

  /**
    When the source is accepted, a throwing row aborts the mapping: `Map`
    throws what the first throwing row threw.
   */
  lemma MapFailsAtFirstThrowingRow(spec: MapSpec, src: Value, j: nat)
    requires CheckSource(src, spec.allowNull).None?
    requires j < |spec.rows| && EvalRow(spec, j, src).Err?
    requires forall i :: 0 <= i < j ==> EvalRow(spec, i, src).Ok?
    ensures Map(spec, src) == Err(EvalRow(spec, j, src).error)
  {
    assert RowsSucceedBetween(spec, src, 0, j);
    ApplyRowsFails(spec, src, 0, j);
  }

  /**
    The properties of a successful result: a row's destination holds the value
    of the last row writing it; a transfer property no row writes holds the
    source's property; nothing else is present.
   */
  lemma MapFieldValues(spec: MapSpec, src: Value)
    requires CheckSource(src, spec.allowNull).None?
    requires RowsSucceed(spec, src)
    ensures Map(spec, src).Ok?
    ensures forall j :: 0 <= j < |spec.rows| && spec.rows[j].destinationProp !in Dests(spec.rows[j + 1..]) ==>
      Lookup(Map(spec, src).value.props, spec.rows[j].destinationProp) == Some(EvalRow(spec, j, src).value)
    ensures forall k :: k in spec.transfer && k !in Dests(spec.rows) ==>
      Lookup(Map(spec, src).value.props, k) == Some(Get(src, k))
    ensures forall k :: k !in spec.transfer && k !in Dests(spec.rows) ==>
      Lookup(Map(spec, src).value.props, k) == None
  {
    var fs := Assigned(spec, src);
    assert Map(spec, src) == Ok(Obj(fs)) by {
      RowLoopPairs(spec, src);
    }
    RowFieldValues(spec, src);
    TransferFieldValues(spec, src);
  }

  /** The properties a successful `Map` builds: the transfer assignments, then the rows'. */
  function Assigned(spec: MapSpec, src: Value): seq<Prop<Value>>
    requires RowsSucceed(spec, src)
  {
    PutAll(PutAll([], TransferPairs(spec.transfer, src)), RowPairs(spec, src))
  }

  lemma RowFieldValues(spec: MapSpec, src: Value)
    requires RowsSucceed(spec, src)
    ensures forall j :: 0 <= j < |spec.rows| && spec.rows[j].destinationProp !in Dests(spec.rows[j + 1..]) ==>
      Lookup(Assigned(spec, src), spec.rows[j].destinationProp) == Some(EvalRow(spec, j, src).value)
  {
    forall j | 0 <= j < |spec.rows| && spec.rows[j].destinationProp !in Dests(spec.rows[j + 1..])
      ensures Lookup(Assigned(spec, src), spec.rows[j].destinationProp) == Some(EvalRow(spec, j, src).value)
    {
      LastWriteWins(spec, src, PutAll([], TransferPairs(spec.transfer, src)), j);
    }
  }

  lemma TransferFieldValues(spec: MapSpec, src: Value)
    requires RowsSucceed(spec, src)
    ensures forall k :: k in spec.transfer && k !in Dests(spec.rows) ==>
      Lookup(Assigned(spec, src), k) == Some(Get(src, k))
    ensures forall k :: k !in spec.transfer && k !in Dests(spec.rows) ==>
      Lookup(Assigned(spec, src), k) == None
  {
    var tp := TransferPairs(spec.transfer, src);
    forall k | k in spec.transfer && k !in Dests(spec.rows)
      ensures Lookup(Assigned(spec, src), k) == Some(Get(src, k))
    {
      PutAllUniform([], tp, k, Get(src, k));
    }
  }

  /** The row that writes a destination last leaves its value there. */
  lemma LastWriteWins(spec: MapSpec, src: Value, base: seq<Prop<Value>>, j: nat)
    requires RowsSucceed(spec, src)
    requires j < |spec.rows| && spec.rows[j].destinationProp !in Dests(spec.rows[j + 1..])
    ensures Lookup(PutAll(base, RowPairs(spec, src)), spec.rows[j].destinationProp) == Some(EvalRow(spec, j, src).value)
  {
    var rp := RowPairs(spec, src);
    DestsSuffix(spec.rows, j + 1);
    KeysSuffix(rp, j + 1);
    assert rp[j].key == spec.rows[j].destinationProp;
    assert rp[j].key !in Keys(rp[j + 1..]);
  }
}

=== FILE: records.dfy ===
/**
  Ordered property lists: the model of a JavaScript plain object.

  A JavaScript object enumerates its own string keys in insertion order, and
  assigning to a key that is already present overwrites the value in place
  without moving the key. `Put` is that assignment, `PutAll` a run of them
  (`Object.fromEntries`, or a loop of `result[k] = v`), and `Lookup` the read.
 */
module Records {
  import opened Wrappers

  /** One own property: a key and the value stored under it. */
  datatype Prop<+V> = Prop(key: string, val: V)

  /** The keys of `props`, in order. */
  function Keys<V>(props: seq<Prop<V>>): (ks: seq<string>)
    ensures |ks| == |props|
    ensures forall i :: 0 <= i < |props| ==> ks[i] == props[i].key
  {
    seq(|props|, i requires 0 <= i < |props| => props[i].key)
  }

  /** No key occurs twice: true of every JavaScript object. */
  predicate UniqueKeys<V>(props: seq<Prop<V>>) {
    forall i, j :: 0 <= i < j < |props| ==> props[i].key != props[j].key
  }

  /** No string occurs twice in `xs`. */
  predicate Distinct(xs: seq<string>) {
    forall i, j :: 0 <= i < j < |xs| ==> xs[i] != xs[j]
  }

  lemma KeysSuffix<V>(props: seq<Prop<V>>, i: nat)
    requires i <= |props|
    ensures Keys(props[i..]) == Keys(props)[i..]
  {
  }

  lemma KeysCons<V>(p: Prop<V>, props: seq<Prop<V>>)
    ensures Keys([p] + props) == [p.key] + Keys(props)
  {
  }

  lemma KeysTail<V>(props: seq<Prop<V>>)
    requires |props| > 0
    ensures Keys(props) == [props[0].key] + Keys(props[1..])
  {
    KeysCons(props[0], props[1..]);
    assert props == [props[0]] + props[1..];
  }

  /** The position of the first property with key `k`, if any. */
  function IndexOf<V>(props: seq<Prop<V>>, k: string): (r: Option<nat>)
    ensures r.None? <==> k !in Keys(props)
    ensures r.Some? ==> r.value < |props| && props[r.value].key == k
    ensures r.Some? ==> k !in Keys(props[..r.value])
  {
    if |props| == 0 then None
    else if props[0].key == k then Some(0)
    else
      match IndexOf(props[1..], k)
      case None => None
      case Some(j) =>
        assert props[..j + 1] == [props[0]] + props[1..][..j];
        KeysCons(props[0], props[1..][..j]);
        Some(j + 1)
  }

  /** `o[k]` for an own property `k`: the value stored under `k`, if any. */
  function Lookup<V>(props: seq<Prop<V>>, k: string): (r: Option<V>)
    ensures r.None? <==> k !in Keys(props)
  {
    match IndexOf(props, k)
    case None => None
    case Some(i) => Some(props[i].val)
  }

  lemma LookupCons<V>(p: Prop<V>, props: seq<Prop<V>>, k: string)
    ensures Lookup([p] + props, k) == if p.key == k then Some(p.val) else Lookup(props, k)
  {
    assert ([p] + props)[1..] == props;
  }

  /** `o[k] = v`: overwrite in place when `k` is present, append otherwise. */
  function Put<V>(props: seq<Prop<V>>, k: string, v: V): (r: seq<Prop<V>>)
    ensures Lookup(r, k) == Some(v)
    ensures forall k' :: k' != k ==> Lookup(r, k') == Lookup(props, k')
    ensures Keys(r) == if k in Keys(props) then Keys(props) else Keys(props) + [k]
    ensures UniqueKeys(props) ==> UniqueKeys(r)
    decreases |props|
  {
    if |props| == 0 then [Prop(k, v)]
    else if props[0].key == k then
      PutHeadFacts(props, k, v);
      [Prop(k, v)] + props[1..]
    else
      var rest := Put(props[1..], k, v);
      PutTailFacts(props, k, v, rest);
      [props[0]] + rest
  }

  lemma PutHeadFacts<V>(props: seq<Prop<V>>, k: string, v: V)
    requires |props| > 0 && props[0].key == k
    ensures Lookup([Prop(k, v)] + props[1..], k) == Some(v)
    ensures forall k' :: k' != k ==> Lookup([Prop(k, v)] + props[1..], k') == Lookup(props, k')
    ensures Keys([Prop(k, v)] + props[1..]) == Keys(props)
    ensures UniqueKeys(props) ==> UniqueKeys([Prop(k, v)] + props[1..])
  {
    var r := [Prop(k, v)] + props[1..];
    assert props == [props[0]] + props[1..];
    forall k' | k' != k
      ensures Lookup(r, k') == Lookup(props, k')
    {
      LookupCons(Prop(k, v), props[1..], k');
      LookupCons(props[0], props[1..], k');
    }
    LookupCons(Prop(k, v), props[1..], k);
    KeysCons(Prop(k, v), props[1..]);
    KeysCons(props[0], props[1..]);
  }

  lemma PutTailFacts<V>(props: seq<Prop<V>>, k: string, v: V, rest: seq<Prop<V>>)
    requires |props| > 0 && props[0].key != k
    requires Lookup(rest, k) == Some(v)
    requires forall k' :: k' != k ==> Lookup(rest, k') == Lookup(props[1..], k')
    requires Keys(rest) == if k in Keys(props[1..]) then Keys(props[1..]) else Keys(props[1..]) + [k]
    requires UniqueKeys(props[1..]) ==> UniqueKeys(rest)
    ensures Lookup([props[0]] + rest, k) == Some(v)
    ensures forall k' :: k' != k ==> Lookup([props[0]] + rest, k') == Lookup(props, k')
    ensures Keys([props[0]] + rest) == if k in Keys(props) then Keys(props) else Keys(props) + [k]
    ensures UniqueKeys(props) ==> UniqueKeys([props[0]] + rest)
  {
    PutTailKeys(props, k, rest);
    PutTailLookup(props, k, v, rest);
    if UniqueKeys(props) {
      UniqueCons(props);
      assert props[0].key !in Keys(rest);
      UniqueConsBack(props[0], rest);
    }
  }

  lemma PutTailKeys<V>(props: seq<Prop<V>>, k: string, rest: seq<Prop<V>>)
    requires |props| > 0 && props[0].key != k
    requires Keys(rest) == if k in Keys(props[1..]) then Keys(props[1..]) else Keys(props[1..]) + [k]
    ensures Keys([props[0]] + rest) == if k in Keys(props) then Keys(props) else Keys(props) + [k]
  {
    assert props == [props[0]] + props[1..];
    KeysCons(props[0], rest);
    KeysCons(props[0], props[1..]);
  }

  lemma PutTailLookup<V>(props: seq<Prop<V>>, k: string, v: V, rest: seq<Prop<V>>)
    requires |props| > 0 && props[0].key != k
    requires Lookup(rest, k) == Some(v)
    requires forall k' :: k' != k ==> Lookup(rest, k') == Lookup(props[1..], k')
    ensures Lookup([props[0]] + rest, k) == Some(v)
    ensures forall k' :: k' != k ==> Lookup([props[0]] + rest, k') == Lookup(props, k')
  {
    assert props == [props[0]] + props[1..];
    forall k'
      ensures Lookup([props[0]] + rest, k') == if k' == k then Some(v) else Lookup(props, k')
    {
      LookupCons(props[0], rest, k');
      LookupCons(props[0], props[1..], k');
    }
  }

  lemma UniqueCons<V>(props: seq<Prop<V>>)
    requires |props| > 0 && UniqueKeys(props)
    ensures props[0].key !in Keys(props[1..]) && UniqueKeys(props[1..])
  {
    forall j | 0 <= j < |props[1..]|
      ensures Keys(props[1..])[j] != props[0].key
    {
      assert Keys(props[1..])[j] == props[j + 1].key;
    }
  }

  lemma UniqueConsBack<V>(p: Prop<V>, rest: seq<Prop<V>>)
    requires p.key !in Keys(rest) && UniqueKeys(rest)
    ensures UniqueKeys([p] + rest)
  {
    var r := [p] + rest;
    forall i, j | 0 <= i < j < |r|
      ensures r[i].key != r[j].key
    {
      if i == 0 {
        assert r[j].key == Keys(rest)[j - 1];
      } else {
        assert r[i] == rest[i - 1] && r[j] == rest[j - 1];
      }
    }
  }

  /** `ks` followed by each key of `extra` that is not already there, first occurrence first. */
  function AppendNew(ks: seq<string>, extra: seq<string>): seq<string>
    decreases |extra|
  {
    if |extra| == 0 then ks
    else AppendNew(if extra[0] in ks then ks else ks + [extra[0]], extra[1..])
  }

  lemma {:induction false} AppendNewConcat(ks: seq<string>, a: seq<string>, b: seq<string>)
    ensures AppendNew(AppendNew(ks, a), b) == AppendNew(ks, a + b)
    decreases |a|
  {
    if |a| > 0 {
      assert (a + b)[0] == a[0];
      assert (a + b)[1..] == a[1..] + b;
      AppendNewConcat(if a[0] in ks then ks else ks + [a[0]], a[1..], b);
    } else {
      assert a + b == b;
    }
  }

  /** A run of assignments `o[p.key] = p.val`, left to right. */
  function PutAll<V>(acc: seq<Prop<V>>, ps: seq<Prop<V>>): (r: seq<Prop<V>>)
    ensures forall k :: k !in Keys(ps) ==> Lookup(r, k) == Lookup(acc, k)
    ensures forall j :: 0 <= j < |ps| && ps[j].key !in Keys(ps[j + 1..]) ==>
      Lookup(r, ps[j].key) == Some(ps[j].val)
    ensures Keys(r) == AppendNew(Keys(acc), Keys(ps))
    ensures UniqueKeys(acc) ==> UniqueKeys(r)
    decreases |ps|
  {
    if |ps| == 0 then acc
    else
      var next := Put(acc, ps[0].key, ps[0].val);
      var r := PutAll(next, ps[1..]);
      PutAllStep(acc, ps, next, r);
      r
  }

  lemma PutAllStep<V>(acc: seq<Prop<V>>, ps: seq<Prop<V>>, next: seq<Prop<V>>, r: seq<Prop<V>>)
    requires |ps| > 0 && next == Put(acc, ps[0].key, ps[0].val)
    requires forall k :: k !in Keys(ps[1..]) ==> Lookup(r, k) == Lookup(next, k)
    requires forall j :: 0 <= j < |ps[1..]| && ps[1..][j].key !in Keys(ps[1..][j + 1..]) ==>
      Lookup(r, ps[1..][j].key) == Some(ps[1..][j].val)
    requires Keys(r) == AppendNew(Keys(next), Keys(ps[1..]))
    ensures forall k :: k !in Keys(ps) ==> Lookup(r, k) == Lookup(acc, k)
    ensures forall j :: 0 <= j < |ps| && ps[j].key !in Keys(ps[j + 1..]) ==>
      Lookup(r, ps[j].key) == Some(ps[j].val)
    ensures Keys(r) == AppendNew(Keys(acc), Keys(ps))
  {
    PutAllStepLast(acc, ps, next, r);
    PutAllStepKeys(acc, ps, next, r);
    PutAllStepFresh(acc, ps, next, r);
  }

  lemma PutAllStepKeys<V>(acc: seq<Prop<V>>, ps: seq<Prop<V>>, next: seq<Prop<V>>, r: seq<Prop<V>>)
    requires |ps| > 0 && next == Put(acc, ps[0].key, ps[0].val)
    requires Keys(r) == AppendNew(Keys(next), Keys(ps[1..]))
    ensures Keys(r) == AppendNew(Keys(acc), Keys(ps))
  {
    KeysTail(ps);
    var ks := Keys(ps);
    assert ks[0] == ps[0].key && ks[1..] == Keys(ps[1..]);
  }

  lemma PutAllStepFresh<V>(acc: seq<Prop<V>>, ps: seq<Prop<V>>, next: seq<Prop<V>>, r: seq<Prop<V>>)
    requires |ps| > 0 && next == Put(acc, ps[0].key, ps[0].val)
    requires forall k :: k !in Keys(ps[1..]) ==> Lookup(r, k) == Lookup(next, k)
    ensures forall k :: k !in Keys(ps) ==> Lookup(r, k) == Lookup(acc, k)
  {
    forall k | k !in Keys(ps)
      ensures Lookup(r, k) == Lookup(acc, k)
    {
      KeysTail(ps);
    }
  }

  lemma PutAllStepLast<V>(acc: seq<Prop<V>>, ps: seq<Prop<V>>, next: seq<Prop<V>>, r: seq<Prop<V>>)
    requires |ps| > 0 && next == Put(acc, ps[0].key, ps[0].val)
    requires forall k :: k !in Keys(ps[1..]) ==> Lookup(r, k) == Lookup(next, k)
    requires forall j :: 0 <= j < |ps[1..]| && ps[1..][j].key !in Keys(ps[1..][j + 1..]) ==>
      Lookup(r, ps[1..][j].key) == Some(ps[1..][j].val)
    ensures forall j :: 0 <= j < |ps| && ps[j].key !in Keys(ps[j + 1..]) ==>
      Lookup(r, ps[j].key) == Some(ps[j].val)
  {
    forall j | 0 <= j < |ps| && ps[j].key !in Keys(ps[j + 1..])
      ensures Lookup(r, ps[j].key) == Some(ps[j].val)
    {
      if j == 0 {
        assert ps[1..] == ps[j + 1..];
      } else {
        assert ps[1..][j - 1] == ps[j] && ps[1..][j - 1 + 1..] == ps[j + 1..];
      }
    }
  }

  /** `Object.fromEntries(ps)`: later entries win, a key keeps its first position. */
  function FromEntries<V>(ps: seq<Prop<V>>): (r: seq<Prop<V>>)
    ensures UniqueKeys(r)
    ensures Keys(r) == AppendNew([], Keys(ps))
    ensures forall j :: 0 <= j < |ps| && ps[j].key !in Keys(ps[j + 1..]) ==> Lookup(r, ps[j].key) == Some(ps[j].val)
    ensures forall k :: k !in Keys(ps) ==> Lookup(r, k) == None
  {
    PutAll([], ps)
  }

  /** Assigning a fresh key appends it. */
  lemma {:induction false} PutFresh<V>(props: seq<Prop<V>>, k: string, v: V)
    requires k !in Keys(props)
    ensures Put(props, k, v) == props + [Prop(k, v)]
    decreases |props|
  {
    if |props| > 0 {
      KeysTail(props);
      PutFresh(props[1..], k, v);
      ConsSnoc(props, Prop(k, v));
    }
  }

  lemma ConsSnoc<T>(xs: seq<T>, x: T)
    requires |xs| > 0
    ensures [xs[0]] + (xs[1..] + [x]) == xs + [x]
  {
  }

  /** Assigning properties whose keys are all new and distinct concatenates them. */
  lemma {:induction false} PutAllFresh<V>(acc: seq<Prop<V>>, ps: seq<Prop<V>>)
    requires UniqueKeys(acc + ps)
    ensures PutAll(acc, ps) == acc + ps
    decreases |ps|
  {
    if |ps| > 0 {
      FreshHead(acc, ps);
      PutFresh(acc, ps[0].key, ps[0].val);
      PutAllFresh(acc + [ps[0]], ps[1..]);
    }
  }

  lemma FreshHead<V>(acc: seq<Prop<V>>, ps: seq<Prop<V>>)
    requires |ps| > 0 && UniqueKeys(acc + ps)
    ensures ps[0].key !in Keys(acc)
    ensures (acc + [ps[0]]) + ps[1..] == acc + ps
  {
    var all := acc + ps;
    forall i | 0 <= i < |acc|
      ensures Keys(acc)[i] != ps[0].key
    {
      assert all[i] == acc[i] && all[|acc|] == ps[0];
    }
  }

  /** `Object.fromEntries(Object.entries(o))` gives back `o`. */
  lemma FromEntriesOfObject<V>(props: seq<Prop<V>>)
    requires UniqueKeys(props)
    ensures FromEntries(props) == props
  {
    assert [] + props == props;
    PutAllFresh([], props);
  }

  /** A run of assignments split in two is the second run applied after the first. */
  lemma {:induction false} PutAllConcat<V>(acc: seq<Prop<V>>, a: seq<Prop<V>>, b: seq<Prop<V>>)
    ensures PutAll(acc, a + b) == PutAll(PutAll(acc, a), b)
    decreases |a|
  {
    if |a| == 0 {
      assert a + b == b;
    } else {
      assert (a + b)[0] == a[0];
      assert (a + b)[1..] == a[1..] + b;
      PutAllConcat(Put(acc, a[0].key, a[0].val), a[1..], b);
    }
  }

  /** Every key of `ps` has a last occurrence. */
  lemma LastIndex<V>(ps: seq<Prop<V>>, k: string) returns (j: nat)
    requires k in Keys(ps)
    ensures j < |ps| && ps[j].key == k && k !in Keys(ps[j + 1..])
    decreases |ps|
  {
    KeysTail(ps);
    if k in Keys(ps[1..]) {
      var j' := LastIndex(ps[1..], k);
      j := j' + 1;
      assert ps[1..][j' + 1..] == ps[j + 1..];
    } else {
      j := 0;
    }
  }

  /** When every occurrence of `k` in `ps` carries `v`, the assignments leave `v` under `k`. */
  lemma PutAllUniform<V>(acc: seq<Prop<V>>, ps: seq<Prop<V>>, k: string, v: V)
    requires k in Keys(ps)
    requires forall j :: 0 <= j < |ps| && ps[j].key == k ==> ps[j].val == v
    ensures Lookup(PutAll(acc, ps), k) == Some(v)
  {
    var j := LastIndex(ps, k);
  }
}

=== FILE: scenarios.dfy ===
/**
  Worked examples: concrete specs and inputs, with the results the engine
  produces for them.
 */
module Scenarios {
  import opened Wrappers
  import opened Records
  import opened Values
  import Mapping
  import opened Summaries
  import opened Validator

  function UpperChar(c: char): char {
    if 'a' <= c <= 'z' then (c as int - 'a' as int + 'A' as int) as char else c
  }

  /** `String.prototype.toUpperCase` on ASCII text. */
  function Upper(s: string): (r: string)
    ensures |r| == |s|
  {
    seq(|s|, i requires 0 <= i < |s| => UpperChar(s[i]))
  }

  /** `(v) => v.toUpperCase()`: a string is upper-cased, anything else throws. */
  function ToUpperMapper(v: Value, o: Value): Result<Value> {
    if v.Str? then Ok(Str(Upper(v.s))) else Err(TypeError)
  }

  lemma ShoutTransfer()
    ensures Mapping.TransferPairs(Shout.transfer, Ana) == [Prop("id", Num(1))]
  {
    assert Get(Ana, "id") == Num(1);
  }

  const Shout := Mapping.MapSpec([Mapping.Row("name", Mapping.Apply(ToUpperMapper), "NAME")], ["id"], false)
  const Ana := Obj([Prop("id", Num(1)), Prop("name", Str("ana"))])

  lemma ShoutRow()
    ensures Mapping.RowsSucceed(Shout, Ana)
    ensures Mapping.RowPairs(Shout, Ana) == [Prop("NAME", Str("ANA"))]
  {
    assert Get(Ana, "name") == Str("ana");
    assert Upper("ana") == "ANA";
    assert Mapping.EvalRow(Shout, 0, Ana) == Ok(Str("ANA"));
  }

  /** The object the mapping below builds. */
  const ShoutOut := [Prop("id", Num(1)), Prop("NAME", Str("ANA"))]

  lemma ShoutPairs()
    ensures Mapping.CheckSource(Ana, Shout.allowNull).None?
    ensures Mapping.RowsSucceed(Shout, Ana)
    ensures Mapping.TransferPairs(Shout.transfer, Ana) + Mapping.RowPairs(Shout, Ana) == ShoutOut
  {
    ShoutTransfer();
    ShoutRow();
  }

  lemma ShoutOutIsObject()
    ensures FromEntries(ShoutOut) == ShoutOut
  {
    assert Keys(ShoutOut) == ["id", "NAME"];
    FromEntriesOfObject(ShoutOut);
  }

  /** `{transfer: ['id'], map: [['name', v => v.toUpperCase(), 'NAME']]}` on `{id: 1, name: 'ana'}`. */
  lemma MapTransferAndRename()
    ensures Mapping.Map(Shout, Ana) == Ok(Obj([Prop("id", Num(1)), Prop("NAME", Str("ANA"))]))
  {
    ShoutPairs();
    Mapping.MapSucceeds(Shout, Ana);
    ShoutOutIsObject();
  }

  /** The rule loop over a property with a single rule. */
  lemma SingleRule(rule: PropertyRule, key: string, value: Value, o: Value, fieldIndex: nat,
                   options: PopulatedOptions, s: Summary)
    ensures EvalRules([rule], 0, key, value, o, fieldIndex, options, s)
         == match RuleVerdict(rule, key, value, o, fieldIndex, options)
            case Some(m) => AddErr(s, key, m)
            case None => s
  {
  }

  function AtLeast18(v: Value, o: Value): Result<bool> {
    Ok(v.Num? && v.n >= 18)
  }

  const AgeSpec := ValidationSpec([Prop("age", Rules([PropertyRule(AtLeast18, Text("must be adult"))]))], NoOptions)

  /** The result of a single-rule property: one error, or none. */
  function Verdict(key: string, m: Option<string>): Summary {
    match m
    case Some(msg) => Summary(false, 1, [], [], [Prop(key, [msg])])
    case None => Clean
  }

  lemma SinglePropCheck(spec: ValidationSpec, key: string, v: Value)
    requires Keys(spec.fields) == [key] && Exists(v)
    ensures PreCheckProps(spec, [], [Prop(key, v)]) == PropsCheck([], [], [key])
  {
    assert Present([Prop(key, v)]) == [key];
    assert Without([key], []) == [key];
    assert Without([key], [key]) == [];
    assert Within([key], [key]) == [key];
  }

  lemma SingleRuleLoop(spec: ValidationSpec, options: PopulatedOptions, o: Value, key: string, rule: PropertyRule)
    requires spec.fields == [Prop(key, Rules([rule]))]
    requires !options.stopWhen(Clean)
    ensures Keys(spec.fields) == [key]
    ensures CheckFields(spec, options, o, [key], 0, Clean)
         == Verdict(key, RuleVerdict(rule, key, Get(o, key), o, 0, options))
  {
    assert Keys(spec.fields) == [key];
    assert IndexOf(spec.fields, key) == Some(0);
    SingleRule(rule, key, Get(o, key), o, 0, options, Clean);
  }

  /**
    A spec with one property and one rule, default options, on an object
    holding just that property: the rule's verdict is the whole result.
   */
  lemma ValidateSingleRule(spec: ValidationSpec, key: string, rule: PropertyRule, v: Value)
    requires spec.fields == [Prop(key, Rules([rule]))] && spec.options == NoOptions
    requires Exists(v)
    ensures var o := Obj([Prop(key, v)]);
      Validate(spec, o) == Verdict(key, RuleVerdict(rule, key, v, o, 0, WithDefaults(NoOptions)))
  {
    var o := Obj([Prop(key, v)]);
    var options := WithDefaults(NoOptions);
    var check := PropsCheck([], [], [key]);
    assert Keys(spec.fields) == [key];
    SinglePropCheck(spec, key, v);
    ValidateObject(spec, o, check);
    assert Prelude(options, check) == Clean;
    SingleRuleLoop(spec, options, o, key, rule);
  }

  /** `{age: [[v => v >= 18, 'must be adult']]}` on `{age: 10}`: one error under `age`. */
  lemma ValidateUnderage()
    ensures Validate(AgeSpec, Obj([Prop("age", Num(10))]))
      == Summary(false, 1, [], [], [Prop("age", ["must be adult"])])
  {
    var rule := PropertyRule(AtLeast18, Text("must be adult"));
    ValidateSingleRule(AgeSpec, "age", rule, Num(10));
    assert RuleVerdict(rule, "age", Num(10), Obj([Prop("age", Num(10))]), 0, WithDefaults(NoOptions))
        == Some("must be adult");
  }

  /**
    The same call as written throws a `TypeError` where the intended
    definition returns a summary with one error under `age`.
   */
  lemma UnderageThrowsAsWritten()
    ensures ValidateAsWritten(AgeSpec, Obj([Prop("age", Num(10))])) == Err(TypeError)
    ensures Validate(AgeSpec, Obj([Prop("age", Num(10))]))
      == Summary(false, 1, [], [], [Prop("age", ["must be adult"])])
  {
    ValidateUnderage();
  }

  function IsNumeric(v: Value, o: Value): Result<bool> {
    Ok(v.Num?)
  }

  const AddressSpec := ValidationSpec([Prop("zip", Rules([PropertyRule(IsNumeric, Text("bad zip"))]))], NoOptions)
  const PersonSpec := ValidationSpec([Prop("addr", Nested(AddressSpec))], NoOptions)

  const Address := Obj([Prop("zip", Str("abc"))])

  /** `{zip: [[isNumeric, 'bad zip']]}` on `{zip: 'abc'}`: one error under `zip`. */
  lemma ValidateAddress()
    ensures Validate(AddressSpec, Address) == Summary(false, 1, [], [], [Prop("zip", ["bad zip"])])
  {
    var rule := PropertyRule(IsNumeric, Text("bad zip"));
    ValidateSingleRule(AddressSpec, "zip", rule, Str("abc"));
    assert RuleVerdict(rule, "zip", Str("abc"), Address, 0, WithDefaults(NoOptions)) == Some("bad zip");
  }

  lemma MergeAddress(s0: Summary, n: Summary)
    requires s0 == Summary(true, 0, [], [], [])
    requires n == Summary(false, 1, [], [], [Prop("zip", ["bad zip"])])
    ensures MergeNestedSummary(s0, "addr", n).errors == [Prop("addr.zip", ["bad zip"])]
  {
    assert PrefixKey("addr", "zip") == "addr.zip";
    assert PrefixErrors("addr", n.errors) == [Prop("addr.zip", ["bad zip"])];
    assert s0.errors + PrefixErrors("addr", n.errors) == [Prop("addr.zip", ["bad zip"])];
    FromEntriesOfObject([Prop("addr.zip", ["bad zip"])]);
  }

  /** The property loop over a spec whose one property is a nested spec. */
  lemma OnlyNestedField(spec: ValidationSpec, options: PopulatedOptions, o: Value, s: Summary)
    requires |spec.fields| == 1 && spec.fields[0].val.Nested?
    requires WellFormed(s) && !options.stopWhen(s)
    ensures var key := spec.fields[0].key;
      CheckFields(spec, options, o, [key], 0, s) == MergeNestedSummary(s, key, Validate(spec.fields[0].val.spec, Get(o, key)))
  {
    var key := spec.fields[0].key;
    assert Keys(spec.fields) == [key];
    assert IndexOf(spec.fields, key) == Some(0);
  }

  const Person := Obj([Prop("addr", Address)])

  /** A fresh summary with nothing recorded. */
  const Clean := Summary(true, 0, [], [], [])

  lemma PersonPrelude()
    ensures Keys(PersonSpec.fields) == ["addr"]
    ensures Validate(PersonSpec, Person) == CheckFields(PersonSpec, WithDefaults(NoOptions), Person, ["addr"], 0, Clean)
  {
    var check := PropsCheck([], [], ["addr"]);
    assert Keys(PersonSpec.fields) == ["addr"];
    SinglePropCheck(PersonSpec, "addr", Address);
    ValidateObject(PersonSpec, Person, check);
    assert Prelude(WithDefaults(NoOptions), check) == Clean;
  }

  lemma PersonLoop()
    ensures Keys(PersonSpec.fields) == ["addr"]
    ensures CheckFields(PersonSpec, WithDefaults(NoOptions), Person, ["addr"], 0, Clean)
         == MergeNestedSummary(Clean, "addr", Summary(false, 1, [], [], [Prop("zip", ["bad zip"])]))
  {
    assert Keys(PersonSpec.fields) == ["addr"];
    assert Get(Person, "addr") == Address;
    ValidateAddress();
    OnlyNestedField(PersonSpec, WithDefaults(NoOptions), Person, Clean);
  }

  /** `{addr: {zip: [[isNumeric, 'bad zip']]}}` on `{addr: {zip: 'abc'}}`: the error is filed under `addr.zip`. */
  lemma ValidateNestedPath()
    ensures Validate(PersonSpec, Obj([Prop("addr", Address)])).errors == [Prop("addr.zip", ["bad zip"])]
  {
    PersonPrelude();
    PersonLoop();
    MergeAddress(Clean, Summary(false, 1, [], [], [Prop("zip", ["bad zip"])]));
  }

  const XYSpec := ValidationSpec(
    [Prop("x", Rules([PropertyRule(AnyValue, Text("bad x"))])), Prop("y", Rules([PropertyRule(AnyValue, Text("bad y"))]))],
    NoOptions)

  const OnlyX := Obj([Prop("x", Num(1))])
  const XYZ := Obj([Prop("x", Num(1)), Prop("y", Num(2)), Prop("z", Num(3))])

  lemma XYKeys()
    ensures Keys(XYSpec.fields) == ["x", "y"]
  {
  }

  /** The pre-check of an object whose declared and present keys are known. */
  lemma PreCheckOf(spec: ValidationSpec, optional: seq<string>, props: seq<Prop<Value>>,
                   declared: seq<string>, present: seq<string>)
    requires Keys(spec.fields) == declared && Present(props) == present
    ensures PreCheckProps(spec, optional, props)
         == PropsCheck(Without(Without(declared, optional), present), Without(present, declared), Within(present, declared))
  {
  }

  // The filters of the pre-check on the literal key lists below, one fact per lemma.

  lemma RequiredXY()
    ensures Without(["x", "y"], []) == ["x", "y"]
  {
  }

  lemma OnlyXPresent()
    ensures Present(OnlyX.props) == ["x"]
  {
  }

  lemma MissingFromOnlyX()
    ensures Without(["x", "y"], ["x"]) == ["y"]
  {
  }

  lemma CheckedInOnlyX()
    ensures Within(["x"], ["x", "y"]) == ["x"]
  {
  }

  lemma RedundantInOnlyX()
    ensures Without(["x"], ["x", "y"]) == []
  {
  }

  lemma PreCheckMissing()
    ensures PreCheckProps(XYSpec, [], OnlyX.props) == PropsCheck(["y"], [], ["x"])
  {
    OnlyXPresent();
    XYKeys();
    PreCheckOf(XYSpec, [], OnlyX.props, ["x", "y"], ["x"]);
    RequiredXY();
    MissingFromOnlyX();
    CheckedInOnlyX();
    RedundantInOnlyX();
  }

  lemma XYZPresent()
    ensures Present(XYZ.props) == ["x", "y", "z"]
  {
  }

  lemma MissingFromXYZ()
    ensures Without(["x", "y"], ["x", "y", "z"]) == []
  {
  }

  lemma CheckedInXYZ()
    ensures Within(["x", "y", "z"], ["x", "y"]) == ["x", "y"]
  {
  }

  lemma RedundantInXYZ()
    ensures Without(["x", "y", "z"], ["x", "y"]) == ["z"]
  {
  }

  lemma PreCheckRedundant(spec: ValidationSpec)
    requires spec.fields == XYSpec.fields
    ensures PreCheckProps(spec, [], XYZ.props) == PropsCheck([], ["z"], ["x", "y"])
  {
    XYZPresent();
    XYKeys();
    PreCheckOf(spec, [], XYZ.props, ["x", "y"], ["x", "y", "z"]);
    RequiredXY();
    MissingFromXYZ();
    CheckedInXYZ();
    RedundantInXYZ();
  }

  /** Both rules of `XYSpec` pass on any value: the property loop leaves the summary as it is. */
  lemma XYRulesPass(spec: ValidationSpec, options: PopulatedOptions, o: Value, props: seq<string>, s: Summary)
    requires spec.fields == XYSpec.fields && WellFormed(s)
    requires props == ["x"] || props == ["x", "y"]
    requires forall m :: 0 <= m < |props| ==> props[m] in Keys(spec.fields)
    ensures CheckFields(spec, options, o, props, 0, s) == s
  {
    SingleRule(XYSpec.fields[0].val.rules[0], "x", Get(o, "x"), o, 0, options, s);
    assert Keys(spec.fields) == ["x", "y"];
    assert IndexOf(spec.fields, "x") == Some(0);
    if |props| == 2 {
      assert IndexOf(spec.fields, "y") == Some(1);
      SingleRule(XYSpec.fields[1].val.rules[0], "y", Get(o, "y"), o, 1, options, s);
      assert CheckFields(spec, options, o, props, 1, s) == s;
    }
  }

  /** `{x: [...], y: [...]}` on `{x: 1}`: `y` is missing, one error. */
  lemma ValidateMissing()
    ensures var s := Validate(XYSpec, OnlyX);
      s.missingProperties == ["y"] && s.errorCount == 1 && !s.valid
  {
    var options := WithDefaults(XYSpec.options);
    PreCheckMissing();
    XYKeys();
    XYRulesPass(XYSpec, options, OnlyX, ["x"], Prelude(options, PropsCheck(["y"], [], ["x"])));
  }

  /** Any spec with the properties of `XYSpec` and no optional ones: on `{x: 1, y: 2, z: 3}` only the prelude speaks. */
  lemma XYZValidated(spec: ValidationSpec)
    requires spec.fields == XYSpec.fields && spec.options.optionalProps.None?
    ensures Validate(spec, XYZ) == Prelude(WithDefaults(spec.options), PropsCheck([], ["z"], ["x", "y"]))
  {
    var check := PropsCheck([], ["z"], ["x", "y"]);
    assert WithDefaults(spec.options).optionalProps == [];
    PreCheckRedundant(spec);
    ValidateObject(spec, XYZ, check);
    XYKeys();
    XYRulesPass(spec, WithDefaults(spec.options), XYZ, ["x", "y"], Prelude(WithDefaults(spec.options), check));
  }

  /** `{x: [...], y: [...]}` on `{x: 1, y: 2, z: 3}`: `z` is redundant, an error by default. */
  lemma ValidateRedundant()
    ensures var s := Validate(XYSpec, XYZ);
      s.redundantProperties == ["z"] && s.errorCount == 1
  {
    XYZValidated(XYSpec);
  }

  /** The same with `redundantIsError: false`: recorded, not counted. */
  lemma ValidateRedundantTolerated()
    ensures var spec := XYSpec.(options := NoOptions.(redundantIsError := Some(false)));
      var s := Validate(spec, XYZ);
      s.redundantProperties == ["z"] && s.errorCount == 0 && s.valid
  {
    var spec := XYSpec.(options := NoOptions.(redundantIsError := Some(false)));
    XYZValidated(spec);
    assert !WithDefaults(spec.options).redundantIsError;
  }

  function AnyValue(v: Value, o: Value): Result<bool> {
    Ok(true)
  }

  function Never(v: Value, o: Value): Result<bool> {
    Ok(false)
  }

  function HasErrors(s: Summary): bool {
    s.errorCount > 0
  }

  const ThreeSpec := ValidationSpec(
    [Prop("a", Rules([PropertyRule(Never, Text("bad a"))])),
     Prop("b", Rules([PropertyRule(Never, Text("bad b"))])),
     Prop("c", Rules([PropertyRule(Never, Text("bad c"))]))],
    NoOptions.(stopWhen := Some(HasErrors)))

  const ABC := Obj([Prop("a", Num(1)), Prop("b", Num(2)), Prop("c", Num(3))])

  lemma ABCPresent()
    ensures Present(ABC.props) == ["a", "b", "c"]
  {
  }

  lemma ThreeKeys()
    ensures Keys(ThreeSpec.fields) == ["a", "b", "c"]
  {
  }

  lemma RequiredABC()
    ensures Without(["a", "b", "c"], []) == ["a", "b", "c"]
  {
  }

  lemma MissingFromABC()
    ensures Without(["a", "b", "c"], ["a", "b", "c"]) == []
  {
  }

  lemma CheckedInABC()
    ensures Within(["a", "b", "c"], ["a", "b", "c"]) == ["a", "b", "c"]
  {
  }

  lemma PreCheckThree()
    ensures PreCheckProps(ThreeSpec, [], ABC.props) == PropsCheck([], [], ["a", "b", "c"])
    ensures Keys(ThreeSpec.fields) == ["a", "b", "c"]
  {
    ABCPresent();
    ThreeKeys();
    PreCheckOf(ThreeSpec, [], ABC.props, ["a", "b", "c"], ["a", "b", "c"]);
    RequiredABC();
    MissingFromABC();
    CheckedInABC();
  }

  /**
    The property loop starts at a property with a single rule, `stopWhen` does
    not hold before it, and it does hold on `next`, the summary after that rule.
   */
  predicate StopsAfterFirst(spec: ValidationSpec, options: PopulatedOptions, o: Value, props: seq<string>, s: Summary,
                            next: Summary)
  {
    && |spec.fields| > 0 && spec.fields[0].val.Rules? && |spec.fields[0].val.rules| == 1
    && |props| > 0 && props[0] == spec.fields[0].key
    && (forall m :: 0 <= m < |props| ==> props[m] in Keys(spec.fields))
    && WellFormed(s) && !options.stopWhen(s)
    && next == EvalRules(spec.fields[0].val.rules, 0, props[0], Get(o, props[0]), o, 0, options, s)
    && options.stopWhen(next)
  }

  /** The property loop when the first property has one rule, and `stopWhen` holds after it. */
  lemma FirstFieldThenStop(spec: ValidationSpec, options: PopulatedOptions, o: Value, props: seq<string>, s: Summary,
                           next: Summary)
    requires StopsAfterFirst(spec, options, o, props, s, next)
    ensures CheckFields(spec, options, o, props, 0, s) == next
  {
    assert IndexOf(spec.fields, props[0]) == Some(0);
  }

  lemma FirstOfThree(options: PopulatedOptions, s0: Summary)
    requires s0 == Summary(true, 0, [], [], [])
    ensures EvalRules(ThreeSpec.fields[0].val.rules, 0, "a", Get(ABC, "a"), ABC, 0, options, s0)
         == Summary(false, 1, [], [], [Prop("a", ["bad a"])])
  {
    var rules := ThreeSpec.fields[0].val.rules;
    assert Get(ABC, "a") == Num(1);
    SingleRule(rules[0], "a", Num(1), ABC, 0, options, s0);
  }

  lemma ThreePrelude()
    ensures Keys(ThreeSpec.fields) == ["a", "b", "c"]
    ensures Validate(ThreeSpec, ABC)
         == CheckFields(ThreeSpec, WithDefaults(ThreeSpec.options), ABC, ["a", "b", "c"], 0, Clean)
  {
    PreCheckThree();
    assert WithDefaults(ThreeSpec.options).optionalProps == [];
    assert Prelude(WithDefaults(ThreeSpec.options), PropsCheck([], [], ["a", "b", "c"])) == Clean;
  }

  /** `stopWhen` of `ThreeSpec` is false on a clean summary and true once an error is counted. */
  lemma ThreeStopWhen()
    ensures var options := WithDefaults(ThreeSpec.options);
      && WellFormed(Clean) && !options.stopWhen(Clean)
      && options.stopWhen(Summary(false, 1, [], [], [Prop("a", ["bad a"])]))
  {
    assert WithDefaults(ThreeSpec.options).stopWhen == HasErrors;
  }

  lemma ThreeFirstRule()
    ensures var props := ["a", "b", "c"];
      && |ThreeSpec.fields| > 0 && ThreeSpec.fields[0].val.Rules? && |ThreeSpec.fields[0].val.rules| == 1
      && |props| > 0 && props[0] == ThreeSpec.fields[0].key
  {
  }

  lemma ThreePropsDeclared()
    ensures var props := ["a", "b", "c"]; forall m :: 0 <= m < |props| ==> props[m] in Keys(ThreeSpec.fields)
  {
    PreCheckThree();
  }

  lemma ThreeFirstVerdict()
    ensures var props := ["a", "b", "c"];
      Summary(false, 1, [], [], [Prop("a", ["bad a"])])
        == EvalRules(ThreeSpec.fields[0].val.rules, 0, props[0], Get(ABC, props[0]), ABC, 0, WithDefaults(ThreeSpec.options), Clean)
  {
    FirstOfThree(WithDefaults(ThreeSpec.options), Clean);
  }

  /** The first property of `ThreeSpec` records its error, after which `stopWhen` holds. */
  lemma ThreeFirstStep()
    ensures StopsAfterFirst(ThreeSpec, WithDefaults(ThreeSpec.options), ABC, ["a", "b", "c"], Clean,
                            Summary(false, 1, [], [], [Prop("a", ["bad a"])]))
  {
    ThreeFirstRule();
    ThreePropsDeclared();
    ThreeStopWhen();
    ThreeFirstVerdict();
  }

  lemma ThreeLoop()
    ensures Keys(ThreeSpec.fields) == ["a", "b", "c"]
    ensures CheckFields(ThreeSpec, WithDefaults(ThreeSpec.options), ABC, ["a", "b", "c"], 0, Clean)
         == Summary(false, 1, [], [], [Prop("a", ["bad a"])])
  {
    PreCheckThree();
    ThreeFirstStep();
    FirstFieldThenStop(ThreeSpec, WithDefaults(ThreeSpec.options), ABC, ["a", "b", "c"], Clean,
                       Summary(false, 1, [], [], [Prop("a", ["bad a"])]));
  }

  /** A `stopWhen` that holds once an error is recorded: only the first property's error is reported. */
  lemma ValidateStopsAfterFirstError()
    ensures Validate(ThreeSpec, ABC) == Summary(false, 1, [], [], [Prop("a", ["bad a"])])
  {
    ThreePrelude();
    ThreeLoop();
  }

  /** A number where an object is expected is reported against `_self`, even for an optional spec. */
  lemma ValidateNotAnObject()
    ensures Validate(AgeSpec.(options := NoOptions.(isOptional := Some(true))), Num(3))
      == Summary(false, 1, [], [], [Prop("_self", ["Value should be an object"])])
    ensures Validate(AgeSpec.(options := NoOptions.(isOptional := Some(true))), Undefined)
      == Summary(true, 0, [], [], [])
  {
  }
}

=== FILE: summary.dfy ===
/**
  The validation summary and the four operations of `_ValidationSummary`
  (src/index.ts:74-116). The source mutates one summary object in place; here
  each operation returns the updated summary.
 */
module Summaries {
  import opened Wrappers
  import opened Records

  /** `ValidationSummary`: `errors` maps a property path, or `_self`, to its messages in order. */
  datatype Summary = Summary(
    valid: bool,
    errorCount: nat,
    missingProperties: seq<string>,
    redundantProperties: seq<string>,
    errors: seq<Prop<seq<string>>>)

  /** The summary's invariant: valid exactly when no error was counted. */
  predicate Consistent(s: Summary) {
    s.valid <==> s.errorCount == 0
  }

  /** The invariant, and `errors` is a genuine object (no key twice). */
  predicate WellFormed(s: Summary) {
    Consistent(s) && UniqueKeys(s.errors)
  }

  /** The messages recorded under `k` so far. */
  function ErrorsAt(s: Summary, k: string): seq<string> {
    Lookup(s.errors, k).GetOr([])
  }

  /** `New()`: a fresh summary, valid, with nothing recorded. */
  function New(): (s: Summary)
    ensures WellFormed(s)
    ensures s.valid && s.errorCount == 0
    ensures s.missingProperties == [] && s.redundantProperties == []
    ensures forall k :: Lookup(s.errors, k) == None
  {
    Summary(true, 0, [], [], [])
  }

  /** `incErrCount(s)`: one more error, and the summary is no longer valid. */
  function IncErrCount(s: Summary): (r: Summary)
    ensures r.errorCount == s.errorCount + 1
    ensures !r.valid && Consistent(r)
    ensures r.missingProperties == s.missingProperties
    ensures r.redundantProperties == s.redundantProperties
    ensures r.errors == s.errors
  {
    s.(errorCount := s.errorCount + 1, valid := false)
  }

  /** `addErr(k, msg, s)`: `msg` goes at the end of the messages for `k`, and the error is counted. */
  function AddErr(s: Summary, k: string, msg: string): (r: Summary)
    ensures Lookup(r.errors, k) == Some(ErrorsAt(s, k) + [msg])
    ensures forall k' :: k' != k ==> Lookup(r.errors, k') == Lookup(s.errors, k')
    ensures Keys(r.errors) == if k in Keys(s.errors) then Keys(s.errors) else Keys(s.errors) + [k]
    ensures r.errorCount == s.errorCount + 1
    ensures !r.valid && Consistent(r)
    ensures UniqueKeys(s.errors) ==> WellFormed(r)
    ensures r.missingProperties == s.missingProperties
    ensures r.redundantProperties == s.redundantProperties
  {
    var messages := match Lookup(s.errors, k)
      case Some(existing) => existing + [msg]
      case None => [msg];
    assert messages == ErrorsAt(s, k) + [msg];
    var errors := Put(s.errors, k, messages);
    Summary(false, s.errorCount + 1, s.missingProperties, s.redundantProperties, errors)
  }

  /** `addErr` applied to each of `msgs` in turn, all under `k`. */
  function AddErrs(s: Summary, k: string, msgs: seq<string>): (r: Summary)
    ensures r.errorCount == s.errorCount + |msgs|
    ensures |msgs| == 0 ==> r == s
    ensures |msgs| > 0 ==> Lookup(r.errors, k) == Some(ErrorsAt(s, k) + msgs) && !r.valid
    ensures forall k' :: k' != k ==> Lookup(r.errors, k') == Lookup(s.errors, k')
    ensures r.missingProperties == s.missingProperties
    ensures r.redundantProperties == s.redundantProperties
    ensures WellFormed(s) ==> WellFormed(r)
    decreases |msgs|
  {
    if |msgs| == 0 then s
    else
      var next := AddErr(s, k, msgs[0]);
      var r := AddErrs(next, k, msgs[1..]);
      AddErrsStep(s, k, msgs, next, r);
      r
  }

  lemma AddErrsCons(s: Summary, k: string, m: string, rest: seq<string>)
    ensures AddErrs(s, k, [m] + rest) == AddErrs(AddErr(s, k, m), k, rest)
  {
    assert ([m] + rest)[0] == m && ([m] + rest)[1..] == rest;
  }

  lemma AddErrsStep(s: Summary, k: string, msgs: seq<string>, next: Summary, r: Summary)
    requires |msgs| > 0 && next == AddErr(s, k, msgs[0])
    requires |msgs| > 1 ==> Lookup(r.errors, k) == Some(ErrorsAt(next, k) + msgs[1..])
    requires |msgs| == 1 ==> r == next
    ensures Lookup(r.errors, k) == Some(ErrorsAt(s, k) + msgs)
  {
    var before := ErrorsAt(s, k);
    assert ErrorsAt(next, k) == before + [msgs[0]];
    ConcatStep(before, msgs);
  }

  lemma ConcatStep(before: seq<string>, msgs: seq<string>)
    requires |msgs| > 0
    ensures (before + [msgs[0]]) + msgs[1..] == before + msgs
    ensures |msgs| == 1 ==> before + [msgs[0]] == before + msgs
  {
    assert msgs == [msgs[0]] + msgs[1..];
  }

  /** `${key}.${v}`: the path of `v` inside the property `key`. */
  function PrefixKey(key: string, v: string): string {
    key + "." + v
  }

  lemma PrefixKeyInjective(key: string, a: string, b: string)
    requires PrefixKey(key, a) == PrefixKey(key, b)
    ensures a == b
  {
    var n := |key + "."|;
    assert a == PrefixKey(key, a)[n..];
    assert b == PrefixKey(key, b)[n..];
  }

  /** `vs.map(prependKey)`. */
  function PrefixAll(key: string, vs: seq<string>): (r: seq<string>)
    ensures |r| == |vs|
    ensures forall i :: 0 <= i < |vs| ==> r[i] == PrefixKey(key, vs[i])
  {
    seq(|vs|, i requires 0 <= i < |vs| => PrefixKey(key, vs[i]))
  }

  /** The nested summary's error entries with their keys prefixed. */
  function PrefixErrors(key: string, errs: seq<Prop<seq<string>>>): (r: seq<Prop<seq<string>>>)
    ensures |r| == |errs|
    ensures forall i :: 0 <= i < |errs| ==> r[i] == Prop(PrefixKey(key, errs[i].key), errs[i].val)
  {
    seq(|errs|, i requires 0 <= i < |errs| => Prop(PrefixKey(key, errs[i].key), errs[i].val))
  }

  /**
    `mergeNestedSummary(s, key, n)`: folds the summary of the nested object
    under property `key` into `s`. Counts add up and validity is the
    conjunction; the nested missing and redundant paths, prefixed with
    `key.`, follow the parent's own; the nested error lists are added under
    prefixed keys, and one of them replaces a parent list of the same key.
   */
  function MergeNestedSummary(s: Summary, key: string, n: Summary): (r: Summary)
    ensures r.valid == (n.valid && s.valid)
    ensures r.errorCount == s.errorCount + n.errorCount
    ensures |r.missingProperties| == |s.missingProperties| + |n.missingProperties|
    ensures r.missingProperties[..|s.missingProperties|] == s.missingProperties
    ensures forall i :: 0 <= i < |n.missingProperties| ==>
      r.missingProperties[|s.missingProperties| + i] == PrefixKey(key, n.missingProperties[i])
    ensures |r.redundantProperties| == |s.redundantProperties| + |n.redundantProperties|
    ensures r.redundantProperties[..|s.redundantProperties|] == s.redundantProperties
    ensures forall i :: 0 <= i < |n.redundantProperties| ==>
      r.redundantProperties[|s.redundantProperties| + i] == PrefixKey(key, n.redundantProperties[i])
    ensures WellFormed(s) && WellFormed(n) ==> WellFormed(r)
    ensures UniqueKeys(s.errors) && UniqueKeys(n.errors) ==>
      forall nk :: nk in Keys(n.errors) ==> Lookup(r.errors, PrefixKey(key, nk)) == Lookup(n.errors, nk)
    ensures UniqueKeys(s.errors) ==>
      forall k :: k !in Keys(PrefixErrors(key, n.errors)) ==> Lookup(r.errors, k) == Lookup(s.errors, k)
    ensures UniqueKeys(s.errors) ==>
      Keys(r.errors) == AppendNew(Keys(s.errors), PrefixAll(key, Keys(n.errors)))
  {
    var nested := PrefixErrors(key, n.errors);
    var errors := FromEntries(s.errors + nested);
    var r := Summary(
      n.valid && s.valid,
      s.errorCount + n.errorCount,
      s.missingProperties + PrefixAll(key, n.missingProperties),
      s.redundantProperties + PrefixAll(key, n.redundantProperties),
      errors);
    MergeErrors(s.errors, key, n.errors);
    r
  }

  /** The error entries of a merge: the parent's entries, then the prefixed nested ones, later winning. */
  lemma MergeErrors(parent: seq<Prop<seq<string>>>, key: string, child: seq<Prop<seq<string>>>)
    ensures var merged := FromEntries(parent + PrefixErrors(key, child));
      && (UniqueKeys(parent) ==> merged == PutAll(parent, PrefixErrors(key, child)))
      && (UniqueKeys(parent) ==>
           forall k :: k !in Keys(PrefixErrors(key, child)) ==> Lookup(merged, k) == Lookup(parent, k))
      && (UniqueKeys(parent) ==>
           Keys(merged) == AppendNew(Keys(parent), PrefixAll(key, Keys(child))))
      && (UniqueKeys(parent) && UniqueKeys(child) ==>
           forall nk :: nk in Keys(child) ==> Lookup(merged, PrefixKey(key, nk)) == Lookup(child, nk))
  {
    var nested := PrefixErrors(key, child);
    PutAllConcat([], parent, nested);
    assert Keys(nested) == PrefixAll(key, Keys(child));
    if UniqueKeys(parent) {
      FromEntriesOfObject(parent);
      if UniqueKeys(child) {
        forall nk | nk in Keys(child)
          ensures Lookup(PutAll(parent, nested), PrefixKey(key, nk)) == Lookup(child, nk)
        {
          PrefixedLast(parent, key, child, nk);
        }
      }
    }
  }

  lemma PrefixedLast(parent: seq<Prop<seq<string>>>, key: string, child: seq<Prop<seq<string>>>, nk: string)
    requires UniqueKeys(child) && nk in Keys(child)
    ensures Lookup(PutAll(parent, PrefixErrors(key, child)), PrefixKey(key, nk)) == Lookup(child, nk)
  {
    var nested := PrefixErrors(key, child);
    var j := IndexOf(child, nk).value;
    assert nested[j].key == PrefixKey(key, nk);
    assert PrefixKey(key, nk) !in Keys(nested[j + 1..]) by {
      KeysSuffix(nested, j + 1);
      forall m | j + 1 <= m < |nested|
        ensures Keys(nested)[m] != PrefixKey(key, nk)
      {
        if nested[m].key == PrefixKey(key, nk) {
          PrefixKeyInjective(key, child[m].key, nk);
        }
      }
    }
    LookupAt(child, j);
  }

  /** In an object the property at position `j` is what a read of its key finds. */
  lemma LookupAt<V>(props: seq<Prop<V>>, j: nat)
    requires UniqueKeys(props) && j < |props|
    ensures Lookup(props, props[j].key) == Some(props[j].val)
  {
    var i := IndexOf(props, props[j].key).value;
    assert props[i].key == props[j].key;
  }
}

=== FILE: validator.dfy ===
/**
  `Validate(spec, obj)` (src/index.ts:180-252) and what it is built from: the
  default options (src/index.ts:131-137), the property pre-check
  `_validationPreCheckProps` (src/index.ts:157-178) and the evaluation of a
  property's rules.

  A rule's validator may throw; that is an `Err` result, which `Validate`
  catches and turns into a message through `errorHandler`.
 */
module Validator {
  import opened Wrappers
  import opened Records
  import opened Values
  import opened Summaries

  /** `ValidationException`: what `errorHandler` is given when a rule's validator throws. */
  datatype ValidationException = ValidationException(key: string, value: Value, ruleIndex: nat, error: Thrown)

  /** The second entry of a rule: a fixed message, or `(value, key) => message`. */
  datatype Message = Text(text: string) | Generated(make: (Value, string) -> string)

  /** `ValidationPropertyRule`: `[validator, msgOrFn]`, the validator called as `validator(value, obj)`. */
  datatype PropertyRule = PropertyRule(validator: (Value, Value) -> Result<bool>, message: Message)

  /** What a spec declares for one property: a list of rules (an array) or a nested spec. */
  datatype FieldSpec = Rules(rules: seq<PropertyRule>) | Nested(spec: ValidationSpec)

  /** A `ValidationSpec`: its declared properties in order, and the options stored under its symbol key. */
  datatype ValidationSpec = ValidationSpec(fields: seq<Prop<FieldSpec>>, options: ValidationOptions)

  /** `ValidationOptions` as the caller writes them: each one may be left out. */
  datatype ValidationOptions = ValidationOptions(
    optionalProps: Option<seq<string>>,
    redundantIsError: Option<bool>,
    stopWhen: Option<Summary -> bool>,
    errorHandler: Option<ValidationException -> string>,
    isOptional: Option<bool>)

  /** `PopulatedValidationOptions`: every option present. */
  datatype PopulatedOptions = PopulatedOptions(
    optionalProps: seq<string>,
    redundantIsError: bool,
    stopWhen: Summary -> bool,
    errorHandler: ValidationException -> string,
    isOptional: bool)

  const NoOptions := ValidationOptions(None, None, None, None, None)

  /** `_defaultValidationOptions`. */
  const DefaultValidationOptions: PopulatedOptions := PopulatedOptions(
    [],
    true,
    (_: Summary) => false,
    (e: ValidationException) => "Could not validate property: " + e.key,
    false)

  /**
    The defaults: no optional property, a redundant property is an error,
    `stopWhen` never stops the loop, `errorHandler` names the property, and
    the value being validated is not optional.
   */
  lemma DefaultOptions()
    ensures DefaultValidationOptions.optionalProps == []
    ensures DefaultValidationOptions.redundantIsError
    ensures forall s: Summary :: !DefaultValidationOptions.stopWhen(s)
    ensures forall e: ValidationException ::
      DefaultValidationOptions.errorHandler(e) == "Could not validate property: " + e.key
    ensures !DefaultValidationOptions.isOptional
  {
  }

  /** `obj.WithDefault(_defaultValidationOptions, spec[ValidationOptionsSym] ?? {})`: given options win. */
  function WithDefaults(user: ValidationOptions): (p: PopulatedOptions)
    ensures user.optionalProps.Some? ==> p.optionalProps == user.optionalProps.value
    ensures user.optionalProps.None? ==> p.optionalProps == []
    ensures user.redundantIsError.Some? ==> p.redundantIsError == user.redundantIsError.value
    ensures user.redundantIsError.None? ==> p.redundantIsError
    ensures user.stopWhen.Some? ==> p.stopWhen == user.stopWhen.value
    ensures user.stopWhen.None? ==> p.stopWhen == DefaultValidationOptions.stopWhen
    ensures user.errorHandler.Some? ==> p.errorHandler == user.errorHandler.value
    ensures user.errorHandler.None? ==> p.errorHandler == DefaultValidationOptions.errorHandler
    ensures user.isOptional.Some? ==> p.isOptional == user.isOptional.value
    ensures user.isOptional.None? ==> !p.isOptional
  {
    PopulatedOptions(
      user.optionalProps.GetOr(DefaultValidationOptions.optionalProps),
      user.redundantIsError.GetOr(DefaultValidationOptions.redundantIsError),
      user.stopWhen.GetOr(DefaultValidationOptions.stopWhen),
      user.errorHandler.GetOr(DefaultValidationOptions.errorHandler),
      user.isOptional.GetOr(DefaultValidationOptions.isOptional))
  }

  /** The options as they are written back onto the spec: all of them given. */
  function Populate(p: PopulatedOptions): ValidationOptions {
    ValidationOptions(Some(p.optionalProps), Some(p.redundantIsError), Some(p.stopWhen), Some(p.errorHandler), Some(p.isOptional))
  }

  /**
    Writing the normalized options back onto the spec (line 188) changes
    nothing a later call sees: normalizing them again gives them back.
   */
  lemma WriteBackIsIdempotent(user: ValidationOptions)
    ensures WithDefaults(Populate(WithDefaults(user))) == WithDefaults(user)
    ensures WithDefaults(NoOptions) == DefaultValidationOptions
  {
  }

  // ---------------------------------------------------------------------------
  // _validationPreCheckProps

  /** `r` is `xs` with some elements dropped, the rest in their order. */
  predicate Subsequence(r: seq<string>, xs: seq<string>)
    decreases |xs|
  {
    if |xs| == 0 then |r| == 0
    else (|r| > 0 && r[0] == xs[0] && Subsequence(r[1..], xs[1..])) || Subsequence(r, xs[1..])
  }

  lemma {:induction false} SubsequenceTrans(a: seq<string>, b: seq<string>, c: seq<string>)
    requires Subsequence(a, b) && Subsequence(b, c)
    ensures Subsequence(a, c)
    decreases |c|
  {
    if |c| > 0 {
      if Subsequence(b, c[1..]) {
        SubsequenceTrans(a, b, c[1..]);
      } else if Subsequence(a, b[1..]) {
        SubsequenceTrans(a, b[1..], c[1..]);
      } else {
        SubsequenceTrans(a[1..], b[1..], c[1..]);
      }
    }
  }

  /** One step of a filter: keeping or dropping the head keeps the order. */
  lemma SubsequenceStep(keep: bool, xs: seq<string>, rest: seq<string>)
    requires |xs| > 0 && Subsequence(rest, xs[1..])
    ensures Subsequence((if keep then [xs[0]] else []) + rest, xs)
  {
    var r := (if keep then [xs[0]] else []) + rest;
    if keep {
      assert r[0] == xs[0] && r[1..] == rest;
    } else {
      assert r == rest;
    }
  }

  /** `xs.filter(x => ys.includes(x))`. */
  function Within(xs: seq<string>, ys: seq<string>): (r: seq<string>)
    ensures forall x :: x in r <==> x in xs && x in ys
    ensures Distinct(xs) ==> Distinct(r)
    ensures Subsequence(r, xs)
    decreases |xs|
  {
    if |xs| == 0 then []
    else
      var rest := Within(xs[1..], ys);
      DistinctTail(xs);
      ConsDistinct(xs[0], rest);
      SubsequenceStep(xs[0] in ys, xs, rest);
      (if xs[0] in ys then [xs[0]] else []) + rest
  }

  /** `xs.filter(x => !ys.includes(x))`. */
  function Without(xs: seq<string>, ys: seq<string>): (r: seq<string>)
    ensures forall x :: x in r <==> x in xs && x !in ys
    ensures Distinct(xs) ==> Distinct(r)
    ensures Subsequence(r, xs)
    decreases |xs|
  {
    if |xs| == 0 then []
    else
      var rest := Without(xs[1..], ys);
      DistinctTail(xs);
      ConsDistinct(xs[0], rest);
      SubsequenceStep(xs[0] !in ys, xs, rest);
      (if xs[0] !in ys then [xs[0]] else []) + rest
  }

  lemma DistinctTail(xs: seq<string>)
    requires |xs| > 0
    ensures xs == [xs[0]] + xs[1..]
    ensures Distinct(xs) ==> Distinct(xs[1..]) && xs[0] !in xs[1..]
  {
    if Distinct(xs) {
      forall j | 0 <= j < |xs[1..]|
        ensures xs[1..][j] != xs[0]
      {
        assert xs[1..][j] == xs[j + 1];
      }
    }
  }

  lemma ConsDistinct(x: string, rest: seq<string>)
    ensures Distinct(rest) && x !in rest ==> Distinct([x] + rest)
    ensures Distinct([] + rest) == Distinct(rest)
  {
    assert [] + rest == rest;
    if Distinct(rest) && x !in rest {
      var r := [x] + rest;
      forall i, j | 0 <= i < j < |r|
        ensures r[i] != r[j]
      {
        if i == 0 {
          assert r[j] == rest[j - 1];
        } else {
          assert r[i] == rest[i - 1] && r[j] == rest[j - 1];
        }
      }
    }
  }

  /** Filtering `xs` by `ys` and by its complement splits `xs` in two. */
  lemma {:induction false} FilterPartition(xs: seq<string>, ys: seq<string>)
    ensures |Within(xs, ys)| + |Without(xs, ys)| == |xs|
    decreases |xs|
  {
    if |xs| > 0 {
      FilterPartition(xs[1..], ys);
    }
  }

  /** The keys of the entries whose value `Exists`, in order. */
  function Present(props: seq<Prop<Value>>): (r: seq<string>)
    ensures forall k :: k in r <==> exists j :: 0 <= j < |props| && props[j].key == k && Exists(props[j].val)
    ensures UniqueKeys(props) ==> Distinct(r)
    ensures Subsequence(r, Keys(props))
    decreases |props|
  {
    if |props| == 0 then []
    else
      var rest := Present(props[1..]);
      PresentTail(props, rest);
      KeysTail(props);
      SubsequenceStep(Exists(props[0].val), Keys(props), rest);
      (if Exists(props[0].val) then [props[0].key] else []) + rest
  }

  lemma PresentTail(props: seq<Prop<Value>>, rest: seq<string>)
    requires |props| > 0
    requires forall k :: k in rest <==> exists j :: 0 <= j < |props[1..]| && props[1..][j].key == k && Exists(props[1..][j].val)
    requires UniqueKeys(props[1..]) ==> Distinct(rest)
    ensures var r := (if Exists(props[0].val) then [props[0].key] else []) + rest;
      && (forall k :: k in r <==> exists j :: 0 <= j < |props| && props[j].key == k && Exists(props[j].val))
      && (UniqueKeys(props) ==> Distinct(r))
  {
    var r := (if Exists(props[0].val) then [props[0].key] else []) + rest;
    forall k
      ensures k in r <==> exists j :: 0 <= j < |props| && props[j].key == k && Exists(props[j].val)
    {
      if exists j :: 0 <= j < |props| && props[j].key == k && Exists(props[j].val) {
        var j :| 0 <= j < |props| && props[j].key == k && Exists(props[j].val);
        if j > 0 {
          assert props[1..][j - 1] == props[j];
        }
      }
      if k in rest {
        var j :| 0 <= j < |props[1..]| && props[1..][j].key == k && Exists(props[1..][j].val);
        assert props[j + 1] == props[1..][j];
      }
    }
    if UniqueKeys(props) {
      assert UniqueKeys(props[1..]) by {
        forall i, j | 0 <= i < j < |props[1..]|
          ensures props[1..][i].key != props[1..][j].key
        {
          assert props[1..][i] == props[i + 1] && props[1..][j] == props[j + 1];
        }
      }
      assert props[0].key !in rest by {
        forall j | 0 <= j < |props[1..]|
          ensures props[1..][j].key != props[0].key
        {
          assert props[1..][j] == props[j + 1];
        }
      }
      ConsDistinct(props[0].key, rest);
    }
  }

  /** `_CheckPropsResult`. */
  datatype PropsCheck = PropsCheck(missing: seq<string>, redundant: seq<string>, propsToCheck: seq<string>)

  /**
    `_validationPreCheckProps(spec, o)`: the required properties absent from
    `o`, the present properties the spec does not declare, and the present
    declared ones, which are the ones checked. A property whose value is
    `null` or `undefined` is not present.
   */
  function PreCheckProps(spec: ValidationSpec, optionalProps: seq<string>, o: seq<Prop<Value>>): (r: PropsCheck)
    ensures forall p :: p in r.missing <==> p in Keys(spec.fields) && p !in optionalProps && p !in Present(o)
    ensures forall p :: p in r.propsToCheck <==> p in Present(o) && p in Keys(spec.fields)
    ensures forall p :: p in r.redundant <==> p in Present(o) && p !in Keys(spec.fields)
    ensures |r.propsToCheck| + |r.redundant| == |Present(o)|
    ensures UniqueKeys(o) ==> Distinct(r.propsToCheck) && Distinct(r.redundant)
    ensures UniqueKeys(spec.fields) ==> Distinct(r.missing)
    ensures Subsequence(r.propsToCheck, Present(o)) && Subsequence(r.redundant, Present(o))
    ensures Subsequence(r.missing, Keys(spec.fields))
  {
    var declared := Keys(spec.fields);
    var required := Without(declared, optionalProps);
    var present := Present(o);
    FilterPartition(present, declared);
    assert UniqueKeys(spec.fields) ==> Distinct(declared) by {
      if UniqueKeys(spec.fields) {
        forall i, j | 0 <= i < j < |declared|
          ensures declared[i] != declared[j]
        {
          assert declared[i] == spec.fields[i].key && declared[j] == spec.fields[j].key;
        }
      }
    }
    SubsequenceTrans(Without(required, present), required, declared);
    PropsCheck(Without(required, present), Without(present, declared), Within(present, declared))
  }

  // ---------------------------------------------------------------------------
  // Rules of one property

  /** The message of a failed rule: the string itself, or the function applied to `(value, key)`. */
  function MessageText(m: Message, value: Value, key: string): (r: string)
    ensures m.Text? ==> r == m.text
    ensures m.Generated? ==> r == m.make(value, key)
  {
    match m
    case Text(t) => t
    case Generated(make) => make(value, key)
  }

  /**
    The outcome of one rule: no message when it passes, the rule's message
    when it fails, and `errorHandler`'s message when it throws. The exception
    handed to `errorHandler` carries the index of the property in
    `propsToCheck` as its `ruleIndex`, as the source passes `i`.
   */
  function RuleVerdict(rule: PropertyRule, key: string, value: Value, o: Value, fieldIndex: nat,
                       options: PopulatedOptions): (r: Option<string>)
    ensures r.None? <==> rule.validator(value, o) == Ok(true)
    ensures rule.validator(value, o).Err? ==>
      r == Some(options.errorHandler(ValidationException(key, value, fieldIndex, rule.validator(value, o).error)))
    ensures rule.validator(value, o) == Ok(false) ==> r == Some(MessageText(rule.message, value, key))
  {
    match rule.validator(value, o)
    case Err(e) => Some(options.errorHandler(ValidationException(key, value, fieldIndex, e)))
    case Ok(pass) => if pass then None else Some(MessageText(rule.message, value, key))
  }

  /** How many of `rules` do not pass on `value`: they return false or throw. */
  function CountFailing(rules: seq<PropertyRule>, value: Value, o: Value): nat
    decreases |rules|
  {
    if |rules| == 0 then 0
    else (if rules[0].validator(value, o) == Ok(true) then 0 else 1) + CountFailing(rules[1..], value, o)
  }

  /** The messages of `rules` for one property, one per rule that fails or throws, in rule order. */
  function RuleMessages(rules: seq<PropertyRule>, key: string, value: Value, o: Value, fieldIndex: nat,
                        options: PopulatedOptions): (msgs: seq<string>)
    ensures |msgs| == CountFailing(rules, value, o)
    ensures forall m :: m in msgs <==>
      exists j :: 0 <= j < |rules| && RuleVerdict(rules[j], key, value, o, fieldIndex, options) == Some(m)
    ensures |msgs| <= |rules|
    ensures msgs == [] <==> forall j :: 0 <= j < |rules| ==> rules[j].validator(value, o) == Ok(true)
    ensures |msgs| == |rules| <==> forall j :: 0 <= j < |rules| ==> rules[j].validator(value, o) != Ok(true)
    decreases |rules|
  {
    if |rules| == 0 then []
    else
      var first := match RuleVerdict(rules[0], key, value, o, fieldIndex, options)
        case Some(m) => [m]
        case None => [];
      var rest := RuleMessages(rules[1..], key, value, o, fieldIndex, options);
      assert forall j :: 1 <= j < |rules| ==> rules[1..][j - 1] == rules[j];
      first + rest
  }

  /** The messages of `rules` begin with the verdict of the first rule, if it has one. */
  lemma RuleMessagesHead(rules: seq<PropertyRule>, key: string, value: Value, o: Value, fieldIndex: nat,
                         options: PopulatedOptions)
    requires |rules| > 0
    ensures var msgs := RuleMessages(rules, key, value, o, fieldIndex, options);
      var rest := RuleMessages(rules[1..], key, value, o, fieldIndex, options);
      match RuleVerdict(rules[0], key, value, o, fieldIndex, options)
      case Some(m) => msgs == [m] + rest
      case None => msgs == rest
  {
  }

  /** Counting the failures among the first `j` rules starts with the first rule. */
  lemma CountFailingHead(rules: seq<PropertyRule>, value: Value, o: Value, j: nat)
    requires 0 < j <= |rules|
    ensures CountFailing(rules[..j], value, o)
         == (if rules[0].validator(value, o) == Ok(true) then 0 else 1) + CountFailing(rules[1..][..j - 1], value, o)
  {
    assert rules[..j][1..] == rules[1..][..j - 1];
    assert rules[..j][0] == rules[0];
  }

  /**
    The messages come in rule order: a rule that fails or throws contributes
    its message at the position given by how many rules before it failed or
    threw.
   */
  lemma {:induction false} RuleMessagesInOrder(rules: seq<PropertyRule>, key: string, value: Value, o: Value,
                                               fieldIndex: nat, options: PopulatedOptions, j: nat)
    requires j < |rules| && RuleVerdict(rules[j], key, value, o, fieldIndex, options).Some?
    ensures CountFailing(rules[..j], value, o) < |RuleMessages(rules, key, value, o, fieldIndex, options)|
    ensures RuleMessages(rules, key, value, o, fieldIndex, options)[CountFailing(rules[..j], value, o)]
         == RuleVerdict(rules[j], key, value, o, fieldIndex, options).value
    decreases j
  {
    if j == 0 {
      InOrderFirst(rules, key, value, o, fieldIndex, options);
    } else {
      RuleMessagesInOrder(rules[1..], key, value, o, fieldIndex, options, j - 1);
      InOrderStep(rules, key, value, o, fieldIndex, options, j);
    }
  }

  /** The first rule's message, when it has one, comes first. */
  lemma InOrderFirst(rules: seq<PropertyRule>, key: string, value: Value, o: Value, fieldIndex: nat,
                     options: PopulatedOptions)
    requires |rules| > 0 && RuleVerdict(rules[0], key, value, o, fieldIndex, options).Some?
    ensures CountFailing(rules[..0], value, o) == 0
    ensures 0 < |RuleMessages(rules, key, value, o, fieldIndex, options)|
    ensures RuleMessages(rules, key, value, o, fieldIndex, options)[0]
         == RuleVerdict(rules[0], key, value, o, fieldIndex, options).value
  {
    RuleMessagesHead(rules, key, value, o, fieldIndex, options);
    assert rules[..0] == [];
  }

  /** The position of rule `j`'s message, shifted past the first rule's. */
  lemma InOrderStep(rules: seq<PropertyRule>, key: string, value: Value, o: Value, fieldIndex: nat,
                    options: PopulatedOptions, j: nat)
    requires 0 < j < |rules| && RuleVerdict(rules[j], key, value, o, fieldIndex, options).Some?
    requires CountFailing(rules[1..][..j - 1], value, o) < |RuleMessages(rules[1..], key, value, o, fieldIndex, options)|
    requires RuleMessages(rules[1..], key, value, o, fieldIndex, options)[CountFailing(rules[1..][..j - 1], value, o)]
          == RuleVerdict(rules[1..][j - 1], key, value, o, fieldIndex, options).value
    ensures CountFailing(rules[..j], value, o) < |RuleMessages(rules, key, value, o, fieldIndex, options)|
    ensures RuleMessages(rules, key, value, o, fieldIndex, options)[CountFailing(rules[..j], value, o)]
         == RuleVerdict(rules[j], key, value, o, fieldIndex, options).value
  {
    assert rules[1..][j - 1] == rules[j];
    RuleMessagesHead(rules, key, value, o, fieldIndex, options);
    CountFailingHead(rules, value, o, j);
  }

  /** The inner `for` loop over the rules of property `key`, from rule `j` on. */
  function EvalRules(rules: seq<PropertyRule>, j: nat, key: string, value: Value, o: Value, fieldIndex: nat,
                     options: PopulatedOptions, s: Summary): (r: Summary)
    requires j <= |rules|
    ensures WellFormed(s) ==> WellFormed(r)
    ensures r.errorCount >= s.errorCount
    ensures r.missingProperties == s.missingProperties
    ensures r.redundantProperties == s.redundantProperties
    ensures forall k :: k != key ==> Lookup(r.errors, k) == Lookup(s.errors, k)
    decreases |rules| - j
  {
    if j == |rules| then s
    else
      var next := match RuleVerdict(rules[j], key, value, o, fieldIndex, options)
        case Some(msg) => AddErr(s, key, msg)
        case None => s;
      EvalRules(rules, j + 1, key, value, o, fieldIndex, options, next)
  }

  /**
    Evaluating the rules of a property records exactly the messages of
    `RuleMessages` under its key, after any already there, and counts one
    error for each.
   */
  lemma {:induction false} EvalRulesRecordsMessages(rules: seq<PropertyRule>, j: nat, key: string, value: Value,
                                                    o: Value, fieldIndex: nat, options: PopulatedOptions, s: Summary)
    requires j <= |rules|
    ensures EvalRules(rules, j, key, value, o, fieldIndex, options, s)
         == AddErrs(s, key, RuleMessages(rules[j..], key, value, o, fieldIndex, options))
    decreases |rules| - j
  {
    if j == |rules| {
      assert rules[j..] == [];
    } else {
      var verdict := RuleVerdict(rules[j], key, value, o, fieldIndex, options);
      RuleMessagesSuffix(rules, j, key, value, o, fieldIndex, options);
      var rest := RuleMessages(rules[j + 1..], key, value, o, fieldIndex, options);
      match verdict
      case None =>
        EvalRulesRecordsMessages(rules, j + 1, key, value, o, fieldIndex, options, s);
        assert [] + rest == rest;
      case Some(msg) =>
        EvalRulesRecordsMessages(rules, j + 1, key, value, o, fieldIndex, options, AddErr(s, key, msg));
        AddErrsCons(s, key, msg, rest);
    }
  }

  lemma RuleMessagesSuffix(rules: seq<PropertyRule>, j: nat, key: string, value: Value, o: Value, fieldIndex: nat,
                           options: PopulatedOptions)
    requires j < |rules|
    ensures RuleMessages(rules[j..], key, value, o, fieldIndex, options)
         == (match RuleVerdict(rules[j], key, value, o, fieldIndex, options)
             case Some(m) => [m]
             case None => [])
          + RuleMessages(rules[j + 1..], key, value, o, fieldIndex, options)
  {
    assert rules[j..][0] == rules[j] && rules[j..][1..] == rules[j + 1..];
  }

  // ---------------------------------------------------------------------------
  // Validate

  const SelfKey := "_self"
  const NotAnObjectMessage := "Value should be an object"

  /**
    The summary before the property loop: one error when any required
    property is missing, however many are; the redundant properties are
    always recorded and count one error only under `redundantIsError`.
   */
  function Prelude(options: PopulatedOptions, check: PropsCheck): (s: Summary)
    ensures WellFormed(s)
    ensures s.errorCount == (if |check.missing| > 0 then 1 else 0)
                          + (if |check.redundant| > 0 && options.redundantIsError then 1 else 0)
    ensures s.missingProperties == check.missing
    ensures s.redundantProperties == check.redundant
    ensures forall k :: Lookup(s.errors, k) == None
  {
    var s0 := New();
    var s1 := if |check.missing| > 0 then IncErrCount(s0).(missingProperties := check.missing) else s0;
    if |check.redundant| > 0 then
      var s2 := s1.(redundantProperties := check.redundant);
      if options.redundantIsError then IncErrCount(s2) else s2
    else s1
  }

  /**
    The outer loop over `props` (the properties to check) from index `i` on:
    before each property `stopWhen` may end it; a property's rules are
    evaluated, or its nested spec validated and merged under its key.
   */
  function CheckFields(spec: ValidationSpec, options: PopulatedOptions, o: Value, props: seq<string>, i: nat,
                       s: Summary): (r: Summary)
    requires i <= |props|
    requires forall m :: 0 <= m < |props| ==> props[m] in Keys(spec.fields)
    requires WellFormed(s)
    ensures WellFormed(r)
    ensures r.errorCount >= s.errorCount
    ensures s.missingProperties <= r.missingProperties
    ensures s.redundantProperties <= r.redundantProperties
    ensures options.stopWhen(s) ==> r == s
    decreases spec, 0, |props| - i
  {
    if i == |props| || options.stopWhen(s) then s
    else
      var key := props[i];
      var idx := IndexOf(spec.fields, key).value;
      var value := Get(o, key);
      var next := match spec.fields[idx].val
        case Rules(rules) => EvalRules(rules, 0, key, value, o, i, options, s)
        case Nested(nested) => MergeNestedSummary(s, key, Validate(nested, value));
      CheckFields(spec, options, o, props, i + 1, next)
  }

  /**
    `Validate` as written. Its parameter `obj` hides the imported `obj`
    helpers, so line 184 reads the member `WithDefault` of the value being
    validated and calls it. Reading a member of `null` or `undefined`
    throws a `TypeError`; on any other value the member is data
    (`undefined` when absent), never a function, and calling it throws a
    `TypeError` too. So the call throws for every input, before the
    options, the shape check or any rule is looked at.
   */
  function ValidateAsWritten(spec: ValidationSpec, o: Value): (r: Result<Summary>)
    ensures r == Err(TypeError)
  {
    match ReadMember(o, "WithDefault")
    case Err(e) => Err(e)
    case Ok(f) => CallData(f)
  }

  /** `v.k`: a `TypeError` on `null` and `undefined`, the member's value otherwise. */
  function ReadMember(v: Value, k: string): (r: Result<Value>)
    ensures r.Err? <==> !Exists(v)
    ensures r.Err? ==> r.error == TypeError
    ensures r.Ok? ==> r.value == Get(v, k)
  {
    if Exists(v) then Ok(Get(v, k)) else Err(TypeError)
  }

  /** Calling a value that is not a function throws a `TypeError`. */
  function CallData<T>(f: Value): Result<T> {
    Err(TypeError)
  }

  /**
    `Validate(spec, obj)` as evidently intended, with line 184 calling the
    library's `obj.WithDefault`. Anything but a plain object gets the single
    `_self` error, except that an absent value of an optional spec is valid;
    for an object, a missing required property and, under
    `redundantIsError`, a redundant one make it invalid whatever the rules
    say. The summary always keeps its invariant.
   */
  function Validate(spec: ValidationSpec, o: Value): (s: Summary)
    ensures WellFormed(s)
    ensures !IsObject(o) && (!WithDefaults(spec.options).isOptional || Exists(o)) ==>
      s == Summary(false, 1, [], [], [Prop(SelfKey, [NotAnObjectMessage])])
    ensures !IsObject(o) && WithDefaults(spec.options).isOptional && !Exists(o) ==>
      s == Summary(true, 0, [], [], [])
    ensures IsObject(o) ==>
      var check := PreCheckProps(spec, WithDefaults(spec.options).optionalProps, o.props);
      && check.missing <= s.missingProperties
      && check.redundant <= s.redundantProperties
      && (|check.missing| > 0 ==> !s.valid)
      && (|check.redundant| > 0 && WithDefaults(spec.options).redundantIsError ==> !s.valid)
    decreases spec, 1
  {
    var options := WithDefaults(spec.options);
    var summary := New();
    if !IsObject(o) then
      if !options.isOptional || Exists(o) then AddErr(summary, SelfKey, NotAnObjectMessage) else summary
    else
      var check := PreCheckProps(spec, options.optionalProps, o.props);
      CheckFields(spec, options, o, check.propsToCheck, 0, Prelude(options, check))
  }

  /**
    On an object, `Validate` is the property loop over the checked
    properties, in the order they appear in the object, starting from the
    prelude's summary.
   */
  lemma ValidateObject(spec: ValidationSpec, o: Value, check: PropsCheck)
    requires IsObject(o)
    requires check == PreCheckProps(spec, WithDefaults(spec.options).optionalProps, o.props)
    ensures forall m :: 0 <= m < |check.propsToCheck| ==> check.propsToCheck[m] in Keys(spec.fields)
    ensures Validate(spec, o)
         == CheckFields(spec, WithDefaults(spec.options), o, check.propsToCheck, 0, Prelude(WithDefaults(spec.options), check))
  {
  }

  /** When `stopWhen` already holds before the first property, no property is checked. */
  lemma StopBeforeFirstProperty(spec: ValidationSpec, o: Value)
    requires IsObject(o)
    requires var options := WithDefaults(spec.options);
      options.stopWhen(Prelude(options, PreCheckProps(spec, options.optionalProps, o.props)))
    ensures var options := WithDefaults(spec.options);
      Validate(spec, o) == Prelude(options, PreCheckProps(spec, options.optionalProps, o.props))
  {
  }

  /**
    One step of the property loop on a property declared with rules: unless
    `stopWhen` ends the loop, every rule is evaluated and its messages land
    under the property's key before the next property is looked at.
   */
  lemma RulesPropertyStep(spec: ValidationSpec, options: PopulatedOptions, o: Value, props: seq<string>, i: nat,
                          s: Summary)
    requires i < |props|
    requires forall m :: 0 <= m < |props| ==> props[m] in Keys(spec.fields)
    requires WellFormed(s)
    requires !options.stopWhen(s)
    requires Lookup(spec.fields, props[i]).Some? && Lookup(spec.fields, props[i]).value.Rules?
    ensures var rules := Lookup(spec.fields, props[i]).value.rules;
      var msgs := RuleMessages(rules, props[i], Get(o, props[i]), o, i, options);
      CheckFields(spec, options, o, props, i, s) == CheckFields(spec, options, o, props, i + 1, AddErrs(s, props[i], msgs))
  {
    var rules := Lookup(spec.fields, props[i]).value.rules;
    EvalRulesRecordsMessages(rules, 0, props[i], Get(o, props[i]), o, i, options, s);
    assert rules[0..] == rules;
  }

  /**
    One step of the property loop on a property declared with a nested spec:
    unless `stopWhen` ends the loop, the value is validated against that spec
    and its summary merged in under the property's name: the next property
    sees the nested error lists under `key.`-prefixed paths, every other
    list as it was, the nested errors added to the count, and validity only
    when both were valid.
   */
  lemma NestedPropertyStep(spec: ValidationSpec, options: PopulatedOptions, o: Value, props: seq<string>, i: nat,
                           s: Summary)
    requires i < |props|
    requires forall m :: 0 <= m < |props| ==> props[m] in Keys(spec.fields)
    requires WellFormed(s)
    requires !options.stopWhen(s)
    requires Lookup(spec.fields, props[i]).Some? && Lookup(spec.fields, props[i]).value.Nested?
    ensures var nested := Lookup(spec.fields, props[i]).value.spec;
      var n := Validate(nested, Get(o, props[i]));
      var next := MergeNestedSummary(s, props[i], n);
      && CheckFields(spec, options, o, props, i, s) == CheckFields(spec, options, o, props, i + 1, next)
      && WellFormed(next)
      && next.errorCount == s.errorCount + n.errorCount
      && next.valid == (s.valid && n.valid)
      && (forall nk :: nk in Keys(n.errors) ==> Lookup(next.errors, PrefixKey(props[i], nk)) == Lookup(n.errors, nk))
      && (forall k :: k !in Keys(PrefixErrors(props[i], n.errors)) ==> Lookup(next.errors, k) == Lookup(s.errors, k))
  {
    var idx := IndexOf(spec.fields, props[i]).value;
    assert Lookup(spec.fields, props[i]) == Some(spec.fields[idx].val);
  }
}

=== FILE: values.dfy ===
/**
  The JavaScript data the engine reads and builds, and the few runtime
  operations on it that the engine relies on: `typeof`, the type tags of
  `IsOfType`, `Exists`, `??` and property reads `o?.[k]`.
 */
module Values {
  import opened Wrappers
  import opened Records

  /** A JavaScript data value; a plain object keeps its own properties in insertion order. */
  datatype Value =
    | Undefined
    | Null
    | Bool(b: bool)
    | Num(n: int)
    | Str(s: string)
    | Arr(items: seq<Value>)
    | Obj(props: seq<Prop<Value>>)

  /** What a `throw` carries: an `Error` built by the engine, a runtime `TypeError`, or any value user code throws. */
  datatype Thrown =
    | Error(message: string)
    | TypeError
    | Raised(payload: Value)

  /** The outcome of a call that may throw. */
  datatype Result<+T> = Ok(value: T) | Err(error: Thrown)

  /** `typeof v === 'object'`: true of null, arrays and plain objects. */
  predicate IsObjectTyped(v: Value) {
    v.Null? || v.Arr? || v.Obj?
  }

  /** `IsOfType('object', v)`: a plain object, never null or an array. */
  predicate IsObject(v: Value) {
    v.Obj?
  }

  /** `Exists(v)`: neither `undefined` nor `null`. */
  predicate Exists(v: Value) {
    !v.Undefined? && !v.Null?
  }

  /** JavaScript truthiness; `NaN` and `-0` do not arise, as numbers are integers here. */
  predicate Truthy(v: Value) {
    match v
    case Undefined => false
    case Null => false
    case Bool(b) => b
    case Num(n) => n != 0
    case Str(s) => |s| > 0
    case Arr(_) => true
    case Obj(_) => true
  }

  /** The name `TypeOf(v)` gives a value's type, as `typeof v` does. */
  function TypeOf(v: Value): string {
    match v
    case Undefined => "undefined"
    case Null => "object"
    case Bool(_) => "boolean"
    case Num(_) => "number"
    case Str(_) => "string"
    case Arr(_) => "object"
    case Obj(_) => "object"
  }

  /** `v ?? null`. */
  function OrNull(v: Value): (r: Value)
    ensures Exists(r) <==> Exists(v)
    ensures Exists(v) ==> r == v
    ensures !Exists(v) ==> r.Null?
  {
    if Exists(v) then v else Null
  }

  predicate IsDigit(c: char) {
    '0' <= c <= '9'
  }

  function DecimalValue(s: string): nat
    requires forall i :: 0 <= i < |s| ==> IsDigit(s[i])
  {
    if |s| == 0 then 0
    else
      var last := s[|s| - 1];
      assert IsDigit(last);
      DecimalValue(s[..|s| - 1]) * 10 + (last as int - '0' as int)
  }

  /** The array index a property key denotes: a decimal numeral without leading zeros. */
  function ArrayIndex(k: string): Option<nat> {
    if |k| > 0 && (forall i :: 0 <= i < |k| ==> IsDigit(k[i])) && (k[0] != '0' || |k| == 1)
    then Some(DecimalValue(k))
    else None
  }

  /**
    `v?.[k]` as the engine uses it: an own property of a plain object, an
    element or the `length` of an array, and `undefined` for everything else,
    `null` and `undefined` included.
   */
  function Get(v: Value, k: string): (r: Value)
    ensures v.Obj? && k !in Keys(v.props) ==> r.Undefined?
    ensures v.Obj? && k in Keys(v.props) ==> Some(r) == Lookup(v.props, k)
    ensures !v.Obj? && !v.Arr? ==> r.Undefined?
    ensures v.Arr? && k == "length" ==> r == Num(|v.items|)
    ensures v.Arr? && k != "length" && ArrayIndex(k).Some? && ArrayIndex(k).value < |v.items| ==>
      r == v.items[ArrayIndex(k).value]
    ensures v.Arr? && k != "length" && (ArrayIndex(k).None? || ArrayIndex(k).value >= |v.items|) ==> r.Undefined?
  {
    match v
    case Obj(props) => Lookup(props, k).GetOr(Undefined)
    case Arr(items) =>
      if k == "length" then Num(|items|)
      else (
        match ArrayIndex(k)
        case Some(n) => if n < |items| then items[n] else Undefined
        case None => Undefined)
    case _ => Undefined
  }
}

=== FILE: wrappers.dfy ===
/** Optional values, used for lookups that may find nothing. */
module Wrappers {

  datatype Option<+T> = None | Some(value: T) {

    /** The wrapped value, or `default` when there is none. */
    function GetOr(default: T): T {
      match this
      case Some(v) => v
      case None => default
    }
  }
}
